=== FILE: README.md ===
# Study Group Finder: schedules, groups, accounts and profiles in Dafny

This project models the rule-bearing core of the Study Group Finder web
application. The core has three parts.

- **Schedules page.** This is the client-side logic of the schedules page:
  - normalising the backend's schedule records;
  - merging them with the user's calendar events, deduplicating by calendar
    event id and sorting by start time;
  - adding, removing and importing attendee e-mails;
  - the guards of "create session".
- **Node routes.** These are the group routes (list, get, create, update,
  delete) and the account routes (register, login, Google stub). Their
  queries are written in PostgreSQL's dialect, and the model follows that
  dialect (see "Left out" for the pool they are wired to).
- **Express/MySQL controllers.** These are the schedule controller (list a
  group's schedules, create one through the calendar, generate a Meet link),
  the profile routes (GET and PUT `/me`) and the admin user controller (list,
  toggle the admin flag, delete an inactive user).

Every handler is a pure function from the table (a `map` from primary key to
row, plus the next auto-increment value where rows are inserted) and the
request to a reply: a status code, a response body and the new table. An
absent request field, a JavaScript `null`/`undefined` and an SQL `NULL` are
all `None`. JavaScript truthiness tests (`!x`, `x || default`) are spelled
out in `Common`. Timestamps are integers. The remote calendar service is an
input: the events it listed, the event it created, or a failure.

Modules, one per source file, plus four shared ones:

| module | file | models |
|---|---|---|
| `Common` | common.dfy | `Option`, JavaScript truthiness, `\|\|` defaults, duplicate-freedom, subsequences |
| `Sorting` | sorting.dfy | the stable sort both the page (`Array.prototype.sort`) and `ORDER BY` use |
| `Tables` | tables.dfy | a table's rows in ascending key order |
| `Text` | text.dfy | `String.prototype.trim` and the e-mail pattern `\S+@\S+\.\S+` |
| `SchedulesPage` | schedules_page.dfy | src/pages/users/SchedulesPage.jsx |
| `GroupRoutes` | groups.dfy | backend-nodejs/routes/group.js |
| `AuthRoutes` | auth.dfy | backend-nodejs/routes/auth.js |
| `Users` | users.dfy | the MySQL `users` row shared by the next two |
| `UserAdmin` | admin.dfy | study-group-backend/controllers/admin/userAdminController.js |
| `ProfileRoutes` | profile.dfy | study-group-backend/routes/userRoutes.js |
| `CalendarController` | calendar.dfy | study-group-backend/controllers/calendarController.js |

## Model

| member | source | states |
|---|---|---|
| Sorting.SortBy | src/pages/users/SchedulesPage.jsx:218 | the result is sorted by the key and is a permutation of the input |
| Sorting.SortIsStable | src/pages/users/SchedulesPage.jsx:218 | for every key value, the elements with that key keep their input order |
| Text.Trim | src/pages/users/SchedulesPage.jsx:295 | the result is a contiguous slice of the input, with only whitespace cut at either end and none left at either end; it is empty exactly when the input is all whitespace |
| SchedulesPage.NormalizeItem | src/pages/users/SchedulesPage.jsx:153-165 | each default: `id`, then `_id`, then null; a falsy calendar id becomes null; "" for description and location; [] for attendees; "group" for the type; title and times are kept |
| SchedulesPage.NormalizeBackend | src/pages/users/SchedulesPage.jsx:153-165 | one normalised item per record, in the same order |
| SchedulesPage.NormalizeIdempotent | src/pages/users/SchedulesPage.jsx:153-165 | normalising a normalised item again changes nothing |
| SchedulesPage.FromCalendar | src/pages/users/SchedulesPage.jsx:188-199 | a calendar event becomes a "personal" item with its own event id and no record id; title "(No title)", description and location "" and attendees [] when missing; start and end are the date-time when there is one, else the all-day date |
| SchedulesPage.Unmatched | src/pages/users/SchedulesPage.jsx:201-215 | an event is added exactly when no backend item carries its id, only events are added, and the result keeps calendar order (intended; as written see UnmatchedAsWritten) |
| SchedulesPage.UnmatchedCounts | src/pages/users/SchedulesPage.jsx:201-215 | each calendar item keeps exactly as many copies as the calendar listed when its id is not indexed, and none when it is: an exact filter |
| SchedulesPage.MergeWithCalendar | src/pages/users/SchedulesPage.jsx:168-225 | after a fetch the result is sorted by start; after a failed fetch it is exactly the normalised backend list (intended; as written see UnmatchedAsWritten) |
| SchedulesPage.MergeKeepsBackend | src/pages/users/SchedulesPage.jsx:207-208 | every normalised backend item is in the merge |
| SchedulesPage.MergeAddsUnmatchedEvents | src/pages/users/SchedulesPage.jsx:201-215 | an event is in the merge if and only if no backend record has a truthy calendar id equal to the event's id |
| SchedulesPage.NullCalendarIdSuppressesNothing | src/pages/users/SchedulesPage.jsx:203-205 | adding a backend record with a null or empty calendar id changes no event's presence |
| SchedulesPage.MergeIsStablePermutation | src/pages/users/SchedulesPage.jsx:207-218 | the merge is a permutation of backend items followed by unmatched events, and items with equal start keep that order |
| SchedulesPage.UnmatchedAsWritten | src/pages/users/SchedulesPage.jsx:201-215 | as written, an event whose id is an inherited object property name is never added |
| SchedulesPage.InheritedKeyDropsEvent | src/pages/users/SchedulesPage.jsx:202-213 | an event with id "constructor" is dropped by the code as written and kept by the intended merge |
| SchedulesPage.AddAttendeeFromInput | src/pages/users/SchedulesPage.jsx:294-306 | blank input: no change. Malformed e-mail: an alert, no change. Otherwise: the trimmed e-mail is appended when absent and the list is unchanged when present, the box is cleared, and duplicate-freedom is kept |
| SchedulesPage.RemoveAttendee | src/pages/users/SchedulesPage.jsx:308-310 | the e-mail is gone. Every other entry is kept, in order, and the length drops by the number of copies |
| SchedulesPage.AddThenRemove | src/pages/users/SchedulesPage.jsx:294-310 | removing an e-mail just added restores the list |
| SchedulesPage.RemoveAbsentAppended | src/pages/users/SchedulesPage.jsx:308-310 | removing an appended absent e-mail gives back the original list |
| SchedulesPage.AddTwice | src/pages/users/SchedulesPage.jsx:302-304 | adding the same input again leaves the list unchanged |
| SchedulesPage.ImportMembers | src/pages/users/SchedulesPage.jsx:318-324 | the old list stays as a prefix. Every member e-mail ends up in the list, each new one once and in member order, and duplicate-freedom is kept |
| SchedulesPage.FetchGroupMembers | src/pages/users/SchedulesPage.jsx:312-329 | no group selected: nothing happens. Failed request: an alert and no change. Otherwise: the members are imported, the old list stays a prefix, and what is appended is duplicate-free, new and drawn from the members |
| SchedulesPage.HandleCreate | src/pages/users/SchedulesPage.jsx:377-451 | rejected exactly when the user id, title, start or end is missing or end ≤ start, with the alert for the first failing guard. Otherwise the payload carries the form's values, type "group", and a calendar id only when signed in |
| GroupRoutes.ListGroups | backend-nodejs/routes/group.js:8-43 | 200, table unchanged, sorted newest first |
| GroupRoutes.ListGroupsHoldsEachRowOnce | backend-nodejs/routes/group.js:10 | the list has as many entries as the table has rows, each a real row under its id, each row exactly once |
| GroupRoutes.ListGroupsNewestFirst | backend-nodejs/routes/group.js:10 | `created_at` never increases along the list |
| GroupRoutes.GetGroup | backend-nodejs/routes/group.js:48-63 | 404 for a missing id, otherwise exactly that row |
| GroupRoutes.CreateGroup | backend-nodejs/routes/group.js:77-107 | a falsy name, subject or creator gives 400 and no change. 201 adds exactly one row with the request's fields under a fresh id; on a valid table a valid request always succeeds |
| GroupRoutes.UpdateGroup | backend-nodejs/routes/group.js:112-133 | 404 for a missing id. Otherwise only name, description and subject of that row change, absent values included |
| GroupRoutes.DeleteGroup | backend-nodejs/routes/group.js:147-163 | 404 for a missing id, otherwise exactly that row is removed |
| GroupRoutes.RoutesPreserveValid | backend-nodejs/routes/group.js:77-163 | no route lets the sequence fall behind a stored id |
| GroupRoutes.CreateThenGet | backend-nodejs/routes/group.js:48-98 | a created group is what GET returns for its id |
| GroupRoutes.CreateThenDelete | backend-nodejs/routes/group.js:89-163 | deleting a just-created group restores the rows |
| GroupRoutes.DeleteThenGet | backend-nodejs/routes/group.js:48-58 | after a delete, GET of that id is 404 |
| GroupRoutes.UpdateIdempotent | backend-nodejs/routes/group.js:112-133 | repeating an update changes nothing more |
| AuthRoutes.Register | backend-nodejs/routes/auth.js:6-34 | an e-mail or user-name clash gives 400 and no change. Without a clash but missing e-mail or user name: 500 "Failed to create account". Without a clash, with both present and a free next key (always so in a valid table, whose ids are all below the key sequence) it succeeds. Every non-400 answer spends a sequence value and validity is kept. Success inserts exactly the request's values and answers without the password; uniqueness is kept |
| AuthRoutes.Login | backend-nodejs/routes/auth.js:37-60 | 200 exactly when some row matches e-mail and password, answering with that row without its password; otherwise 401 |
| AuthRoutes.GoogleLogin | backend-nodejs/routes/auth.js:63-76 | always the fixed stub user, table untouched |
| AuthRoutes.RegistrationsKeepValid | backend-nodejs/routes/auth.js:20-23 | over any run of registrations every stored id stays below the key sequence |
| AuthRoutes.RegisterThenLogin | backend-nodejs/routes/auth.js:6-60 | a fresh registration can log in with its password and gets the same user back |
| AuthRoutes.RegistrationsKeepUnique | backend-nodejs/routes/auth.js:11-18 | any run of registrations keeps e-mails and user names unique |
| AuthRoutes.ResponsesHidePassword | backend-nodejs/routes/auth.js:22-29 | the registration response does not depend on the password |
| UserAdmin.GetAdminUserList | study-group-backend/controllers/admin/userAdminController.js:5-15 | 200 with a user list, table unchanged |
| UserAdmin.AdminUserListProjectsEveryUser | study-group-backend/controllers/admin/userAdminController.js:7-10 | one entry per user, each the selected columns of that user's row |
| UserAdmin.AdminUserListHidesPasswords | study-group-backend/controllers/admin/userAdminController.js:7-10 | tables differing only in passwords list identically |
| UserAdmin.Toggled | study-group-backend/controllers/admin/userAdminController.js:29 | the new flag is 1 exactly when the old one was falsy, else 0 |
| UserAdmin.ToggleAdminRole | study-group-backend/controllers/admin/userAdminController.js:18-37 | 404 and no change for a missing user. Otherwise only that user's flag flips, to 1 from a falsy value and to 0 from a truthy one, and the response echoes it |
| UserAdmin.ToggleTwice | study-group-backend/controllers/admin/userAdminController.js:29-30 | toggling twice restores admin status, and the stored flag when it was 0 or 1 |
| UserAdmin.DeleteUserById | study-group-backend/controllers/admin/userAdminController.js:40-56 | missing user: 404. Active user: 400 and no change. Success exactly for a non-active user, removing exactly that row |
| UserAdmin.ActiveUserNeverDeleted | study-group-backend/controllers/admin/userAdminController.js:46-48 | an active user survives any run of delete requests |
| ProfileRoutes.BackendUrl | study-group-backend/routes/userRoutes.js:49 | the configured URL when set, else `http://localhost:5000` |
| ProfileRoutes.PhotoUrl | study-group-backend/routes/userRoutes.js:52 | the URL is the prefix followed by exactly the file name |
| ProfileRoutes.PhotoUrlInjective | study-group-backend/routes/userRoutes.js:52 | two files share a URL only if they are the same file |
| ProfileRoutes.ShownPhoto | study-group-backend/routes/userRoutes.js:51-53 | a set photo is shown as its URL, an unset one stays unset |
| ProfileRoutes.Coalesce | study-group-backend/routes/userRoutes.js:34-39 | `NULL` reads as "", anything else as itself |
| ProfileRoutes.GetMe | study-group-backend/routes/userRoutes.js:20-66 | 404 without a row. Otherwise the row's names and bio with NULL shown as "" and a value as stored, user name and e-mail as stored, photo as URL |
| ProfileRoutes.UpdateMe | study-group-backend/routes/userRoutes.js:68-104 | only the caller's row changes. Its five form columns take the request values, the photo changes only with an upload, and e-mail, password, flag and status are kept; the response is the re-read row. No row: 500 |
| ProfileRoutes.UpdateThenGet | study-group-backend/routes/userRoutes.js:20-97 | after an update GET shows the submitted values, the old e-mail, and the new or else the old photo |
| ProfileRoutes.UpdateAnswersLikeGet | study-group-backend/routes/userRoutes.js:31-99 | with every coalesced field given, the PUT answer equals a following GET's |
| ProfileRoutes.EmailNeverChanges | study-group-backend/routes/userRoutes.js:73-84 | e-mail survives any run of profile updates |
| ProfileRoutes.ProfileHidesPassword | study-group-backend/routes/userRoutes.js:31-44 | neither route's answer depends on any password |
| CalendarController.EventOf | study-group-backend/controllers/calendarController.js:29 | absent location, description and meeting type become "Online", "" and "physical"; given values are kept |
| CalendarController.LinkFor | study-group-backend/controllers/calendarController.js:43-47 | a link exactly for online meetings with a truthy hangout link, and then that link |
| CalendarController.CreateGroupSchedule | study-group-backend/controllers/calendarController.js:27-80 | missing title, start or end: 400 with no calendar call and no insert. Calendar failure: 500 and no insert. 201: one new row that agrees with the returned schedule on every column, empty attendees, the event's id |
| CalendarController.GenerateMeetLink | study-group-backend/controllers/calendarController.js:82-99 | asks for a 30-minute online event; 200 with the hangout link or null, or on a failed call 500 with only the message "Failed to generate Google Meet link" |
| CalendarController.OnlineScheduleGetsMeetLink | study-group-backend/controllers/calendarController.js:43-47 | an online schedule stores the link a Meet-link request would return |
| CalendarController.Listed | study-group-backend/controllers/calendarController.js:13-18 | the listing defaults: attendees `[]` (NULL or "") or the parsed list, meeting type "physical", a falsy meeting link shown as null and a truthy one kept; every other column passes through unchanged |
| CalendarController.InGroup | study-group-backend/controllers/calendarController.js:9 | exactly the rows of the group, in id order |
| CalendarController.GetGroupSchedules | study-group-backend/controllers/calendarController.js:5-25 | 200 exactly when every row of the group has attendees text that parses, and then sorted by start ascending, a permutation of the group's rows with the defaults; otherwise 500 "DB Error" |
| CalendarController.GroupSchedulesSound | study-group-backend/controllers/calendarController.js:8-18 | everything listed is a row of that group, with the defaults |
| CalendarController.GroupSchedulesComplete | study-group-backend/controllers/calendarController.js:8-18 | every row of the group is listed exactly once |
| CalendarController.CreateThenList | study-group-backend/controllers/calendarController.js:8-68 | creating never changes whether the group's listing succeeds, and when it does the created schedule appears in it as returned |

## Left out

- Date parsing and formatting (`new Date`, `toISOString`, time zones, invalid dates): times are integers, so the `RangeError` path of an invalid date is not modelled.
- JSON `null` and an absent field are the same `None`, so destructuring defaults apply to both.
- Database failures other than a duplicate key, the `NOT NULL` violation of a registration without e-mail or user name (500 "Failed to create account") and the missing-row read in PUT `/me` are not modelled. Connection errors and foreign-key violations are among them.
- Foreign-key and unique constraints the schemas may declare beyond `username`/`email` in the `users` table of the Node backend are not modelled.
- The socket.io broadcast after a schedule is created is left out; it does not affect the reply or the table.
- The Google Calendar calls (`gapi` on the page, the `createEvent` helper) are inputs: the events listed, the event created, or a failure. The sign-in flow and the helper's own request building are not part of this model.
- `typeIsDark` (src/pages/users/SchedulesPage.jsx:282-291) is left out because it computes a floating-point luminance.
- The page's mapping of items to calendar widgets and all rendering are left out.
- Route parameters are integers. A non-numeric id makes the PostgreSQL-dialect queries of the Node routes fail, and MySQL compares it loosely; neither is modelled.
- The Node routes (backend-nodejs/routes/group.js, backend-nodejs/routes/auth.js) are modelled as the PostgreSQL queries they are written as: `$n` placeholders, `RETURNING`, results read from `result.rows`, over the `SERIAL`-keyed tables of backend-nodejs/migrate.js. The pool they import is a mysql2 pool (backend-nodejs/db.js:1,4,49). Under it the result has no `rows` field and `$1` is not a placeholder, so as wired the handlers would answer 500 from their `catch` blocks, or for the list a body without data. backend-nodejs/server.js mounts the group routes but not auth.js. The model states what the queries mean, not this wiring.
- The `|| []` null guard of `normalizeBackend` is left out: every caller passes an array.
- A backend calendar id equal to `__proto__` (assigning it to the index object changes the prototype) is not modelled.
- The migration scripts declare `group_name`/`size` columns that the group routes never use. The model follows the columns the routes read and write.
- `SELECT` statements without `ORDER BY` are modelled in ascending primary-key order. Ties in `ORDER BY` are broken by primary key.
- Multer's file storage is left out: an upload is just the stored file name. The name is the upload time plus the extension, so it is always non-empty.
- The `console` logging in the handlers is left out.
- Concurrent requests are left out: every property is about requests handled one after another.
- The attendees column is modelled as either a parsed list of e-mails or text `JSON.parse` rejects; JSON that parses to something other than a list of strings (a number, an object) is not modelled.
- The `error: err.message` field of the 500 reply of `createGroupSchedule` carries the thrown error's text, which is not modelled; the reply is `success: false` with its fixed message.
- CalendarController.CreateThenList: holds only when the meeting type is not the empty string, because the listing shows an empty type as "physical" while the create response shows it as "".
- UserAdmin.ToggleTwice: restores the stored flag only when it was 0 or 1. A `NULL` or any other value comes back as 0 or 1, so only admin status round-trips.
- AuthRoutes.Login: when several rows match it answers with the smallest id, whereas a query without `ORDER BY` returns an unspecified first row.
- AuthRoutes.Login: the answer carries five columns (id, first and last name, username, e-mail). The route returns the whole row minus the password, so it also includes `middle_name`, `google_id`, `is_verified`, `verification_code`, `reset_password_token`, `reset_password_expire`, `created_at`, `status`, `bio`, `profile_photo` and `is_admin` (backend-nodejs/migrate.js:6-23). Those columns are not modelled.
- AuthRoutes.RegisterThenLogin: "the same user back" is on the five modelled columns, which are exactly what registration returns. Login's answer also carries the other, unmodelled columns of the row at their defaults.
- SchedulesPage.MergeWithCalendar: the sort key is the integer start, whereas the page compares `Date` values and an unparsable date compares as NaN.

## Findings

| source | as written | input that shows it | evidently intended | confidence | as-written member | corrected member |
|---|---|---|---|---|---|---|
| src/pages/users/SchedulesPage.jsx:202-213 | the index `byGoogleId` is a plain object, so `byGoogleId[id]` is truthy for an id that is an inherited property name | no backend records and one calendar event whose id is "constructor" (a valid base32hex event id): the event is not shown | an event is added exactly when no backend item carries its id | not executed | SchedulesPage.UnmatchedAsWritten | SchedulesPage.MergeAddsUnmatchedEvents |

=== FILE: admin.dfy ===
/** The admin user controller of the MySQL backend: list users, toggle the
    admin flag, delete an inactive user. Each handler is a transition over the
    users table returning a status code and a response body. */
module UserAdmin {
  import opened Common
  import opened Tables
  import opened Users

  /** The projection `SELECT id, first_name, middle_name, last_name, username,
      email, is_admin, status`: no password, bio or photo. */
  datatype AdminUserView = AdminUserView(
    id: int,
    firstName: Option<string>,
    middleName: Option<string>,
    lastName: Option<string>,
    username: Option<string>,
    email: Option<string>,
    isAdmin: Option<int>,
    status: Option<string>)

  datatype Body =
    | UserList(users: seq<AdminUserView>)
    | RoleUpdated(message: string, userId: int, isAdmin: int)
    | Message(message: string)

  datatype Reply = Reply(status: int, body: Body, table: UserTable)

  const UserNotFound := Message("User not found")

  function Project(id: int, u: User): AdminUserView {
    AdminUserView(id, u.firstName, u.middleName, u.lastName, u.username, u.email, u.isAdmin, u.status)
  }

  /** `getAdminUserList`. */
  function GetAdminUserList(t: UserTable): (r: Reply)
    ensures r.status == 200 && r.table == t && r.body.UserList?
  {
    var rows := Entries(t);
    Reply(200, UserList(seq(|rows|, i requires 0 <= i < |rows| => Project(rows[i].id, rows[i].data))), t)
  }

  /** The list has one entry per user, each the projection of that user's
      row. */
  lemma AdminUserListProjectsEveryUser(t: UserTable)
    ensures var users := GetAdminUserList(t).body.users;
            && |users| == |t|
            && (forall v | v in users :: v.id in t && v == Project(v.id, t[v.id]))
            && (forall id | id in t :: Project(id, t[id]) in users)
  {
    EntriesSpec(t);
    var rows := Entries(t);
    var users := GetAdminUserList(t).body.users;
    forall v | v in users ensures v.id in t && v == Project(v.id, t[v.id]) {
      var i :| 0 <= i < |users| && users[i] == v;
      assert rows[i] in rows;
    }
    forall id | id in t ensures Project(id, t[id]) in users {
      var i :| 0 <= i < |rows| && rows[i] == Row(id, t[id]);
      assert users[i] == Project(id, t[id]);
    }
  }

  /** The list never shows a password: tables that differ only in passwords
      list identically. */
  lemma AdminUserListHidesPasswords(t1: UserTable, t2: UserTable)
    requires SameButPasswords(t1, t2)
    ensures GetAdminUserList(t1).body == GetAdminUserList(t2).body
  {
    EntriesSound(t1);
    EntriesSound(t2);
    EntriesSameKeys(t1, t2);
    var e1 := Entries(t1);
    var e2 := Entries(t2);
    var u1 := GetAdminUserList(t1).body.users;
    var u2 := GetAdminUserList(t2).body.users;
    forall i | 0 <= i < |u1| ensures u1[i] == u2[i] {
      assert e1[i] in e1 && e2[i] in e2;
      var id := e1[i].id;
      assert t1[id].(password := None) == t2[id].(password := None);
    }
  }

  /** The flag after a toggle: 1 if it was falsy (`NULL` or 0), else 0. */
  function Toggled(flag: Option<int>): (f: int)
    ensures f == 0 || f == 1
    ensures f == 1 <==> !TruthyInt(flag)
  {
    if TruthyInt(flag) then 0 else 1
  }

  /** `toggleAdminRole`. */
  function ToggleAdminRole(t: UserTable, id: int): (r: Reply)
    ensures id !in t ==> r == Reply(404, UserNotFound, t)
    ensures id in t ==>
      && r.status == 200
      && r.table.Keys == t.Keys
      && (forall other | other in t && other != id :: r.table[other] == t[other])
      && r.table[id] == t[id].(isAdmin := r.table[id].isAdmin)
      && r.table[id].isAdmin == Some(Toggled(t[id].isAdmin))
      && r.body == RoleUpdated("User role updated", id, r.table[id].isAdmin.value)
  {
    if id !in t then Reply(404, UserNotFound, t)
    else
      var role := Toggled(t[id].isAdmin);
      Reply(200, RoleUpdated("User role updated", id, role), t[id := t[id].(isAdmin := Some(role))])
  }

  /** Toggling twice gives back the same admin status; the stored flag itself
      comes back exactly when it was 0 or 1 (a `NULL` or a 2 comes back as 0
      or 1). */
  lemma ToggleTwice(t: UserTable, id: int)
    ensures var t2 := ToggleAdminRole(ToggleAdminRole(t, id).table, id).table;
            && t2.Keys == t.Keys
            && (id in t ==> (TruthyInt(t2[id].isAdmin) <==> TruthyInt(t[id].isAdmin)))
            && (id !in t || t[id].isAdmin == Some(0) || t[id].isAdmin == Some(1) ==> t2 == t)
  {
    var t2 := ToggleAdminRole(ToggleAdminRole(t, id).table, id).table;
    if id in t && (t[id].isAdmin == Some(0) || t[id].isAdmin == Some(1)) {
      assert t2[id] == t[id];
      assert forall other | other in t :: t2[other] == t[other];
    }
  }

  /** `deleteUserById`: only a user whose status is not "active" can go. */
  function DeleteUserById(t: UserTable, id: int): (r: Reply)
    ensures id !in t ==> r == Reply(404, UserNotFound, t)
    ensures id in t && t[id].status == Some("active") ==>
      r == Reply(400, Message("Cannot delete an active user"), t)
    ensures r.status == 200 <==> id in t && t[id].status != Some("active")
    ensures r.status == 200 ==>
      && r.body == Message("User deleted successfully")
      && r.table.Keys == t.Keys - {id}
      && (forall other | other in r.table :: r.table[other] == t[other])
  {
    if id !in t then Reply(404, UserNotFound, t)
    else if t[id].status == Some("active") then Reply(400, Message("Cannot delete an active user"), t)
    else Reply(200, Message("User deleted successfully"), t - {id})
  }

  /** An active user survives any sequence of delete requests. */
  lemma {:induction false} ActiveUserNeverDeleted(t: UserTable, id: int, requests: seq<int>)
    requires id in t && t[id].status == Some("active")
    ensures id in DeleteAll(t, requests) && DeleteAll(t, requests)[id] == t[id]
    decreases |requests|
  {
    if |requests| > 0 {
      ActiveUserNeverDeleted(DeleteUserById(t, requests[0]).table, id, requests[1..]);
    }
  }

  /** The table after a run of delete requests, one after the other. */
  function DeleteAll(t: UserTable, requests: seq<int>): UserTable
    decreases |requests|
  {
    if |requests| == 0 then t else DeleteAll(DeleteUserById(t, requests[0]).table, requests[1..])
  }
}

=== FILE: auth.dfy ===
/** The account routes of the Node backend (`/api/auth`): register, login and
    the Google stub, over the `users` table. `username` and `email` are
    `NOT NULL UNIQUE` columns there, so a row always has both. Passwords are
    stored and compared as given. The queries are written in PostgreSQL's
    dialect and are modelled as such, on the five columns registration
    writes and returns besides the password. */
module AuthRoutes {
  import opened Common
  import opened Tables

  datatype Account = Account(
    firstName: Option<string>,
    lastName: Option<string>,
    username: string,
    email: string,
    password: Option<string>)

  /** What a response may show of an account: every modelled column but the
      password. */
  datatype AccountView = AccountView(
    id: int,
    firstName: Option<string>,
    lastName: Option<string>,
    username: string,
    email: string)

  datatype UserTable = UserTable(rows: map<int, Account>, nextId: int)

  datatype RegisterRequest = RegisterRequest(
    firstName: Option<string>,
    lastName: Option<string>,
    username: Option<string>,
    email: Option<string>,
    password: Option<string>)

  datatype Body =
    | UserBody(message: string, user: AccountView)
    | StubBody(message: string, email: string)
    | ErrorBody(error: string)

  datatype Reply = Reply(status: int, body: Body, table: UserTable)

  /** The fixed user the Google endpoint answers with. */
  const StubEmail := "test@example.com"

  function View(id: int, a: Account): (v: AccountView)
    ensures v.id == id && v.email == a.email && v.username == a.username
  {
    AccountView(id, a.firstName, a.lastName, a.username, a.email)
  }

  /** No two rows share an e-mail or a user name. */
  predicate Unique(t: UserTable) {
    forall i, j | i in t.rows && j in t.rows && i != j ::
      t.rows[i].email != t.rows[j].email && t.rows[i].username != t.rows[j].username
  }

  /** The key sequence is above every stored id, so the next insert cannot
      hit a taken key. */
  predicate Valid(t: UserTable) {
    forall id | id in t.rows :: id < t.nextId
  }

  /** `WHERE email = $1 OR username = $2`: SQL `NULL` equals nothing. */
  predicate Clashes(a: Account, req: RegisterRequest) {
    req.email == Some(a.email) || req.username == Some(a.username)
  }

  /** POST `/register`. */
  function Register(t: UserTable, req: RegisterRequest): (r: Reply)
    ensures (exists id | id in t.rows :: Clashes(t.rows[id], req)) ==>
      r == Reply(400, ErrorBody("User already exists"), t)
    ensures r.status != 200 ==> r.table.rows == t.rows
    ensures r.status == 200 ==>
      && req.email.Some? && req.username.Some?
      && t.nextId !in t.rows
      && r.table.rows == t.rows[t.nextId := Account(req.firstName, req.lastName, req.username.value,
                                                    req.email.value, req.password)]
      && r.body == UserBody("User created successfully", View(t.nextId, r.table.rows[t.nextId]))
    ensures (&& (forall id | id in t.rows :: !Clashes(t.rows[id], req))
             && req.email.Some? && req.username.Some? && t.nextId !in t.rows) ==> r.status == 200
    ensures (&& (forall id | id in t.rows :: !Clashes(t.rows[id], req))
             && (req.email.None? || req.username.None?)) ==>
      r.status == 500 && r.body == ErrorBody("Failed to create account")
    ensures Unique(t) ==> Unique(r.table)
    ensures Valid(t) ==> Valid(r.table)
    ensures r.status == 400 || r.table.nextId == t.nextId + 1
  {
    if exists id | id in t.rows :: Clashes(t.rows[id], req) then
      Reply(400, ErrorBody("User already exists"), t)
    else if req.email.None? || req.username.None? || t.nextId in t.rows then
      // a NOT NULL or primary-key violation; the sequence value is spent
      Reply(500, ErrorBody("Failed to create account"), t.(nextId := t.nextId + 1))
    else
      var a := Account(req.firstName, req.lastName, req.username.value, req.email.value, req.password);
      Reply(200, UserBody("User created successfully", View(t.nextId, a)),
            UserTable(t.rows[t.nextId := a], t.nextId + 1))
  }

  /** `WHERE email = $1 AND password = $2`. */
  predicate Matches(a: Account, email: Option<string>, password: Option<string>) {
    email == Some(a.email) && password.Some? && a.password == password
  }

  /** POST `/login`: the matching row without its password, or 401. Should
      several rows match, the one with the smallest id is taken. */
  function Login(t: UserTable, email: Option<string>, password: Option<string>): (r: Reply)
    ensures r.table == t
    ensures r.status == 200 <==> exists id | id in t.rows :: Matches(t.rows[id], email, password)
    ensures r.status != 200 ==> r == Reply(401, ErrorBody("Invalid credentials"), t)
    ensures r.status == 200 ==>
      && r.body.UserBody? && r.body.message == "Login successful"
      && r.body.user.id in t.rows
      && Matches(t.rows[r.body.user.id], email, password)
      && r.body.user == View(r.body.user.id, t.rows[r.body.user.id])
  {
    var ids := set id | id in t.rows && Matches(t.rows[id], email, password);
    assert forall id | id in t.rows && Matches(t.rows[id], email, password) :: id in ids;
    if ids == {} then Reply(401, ErrorBody("Invalid credentials"), t)
    else
      var id := Min(ids);
      Reply(200, UserBody("Login successful", View(id, t.rows[id])), t)
  }

  /** POST `/google`: a fixed stub user whatever the credential; the table is
      not consulted. */
  function GoogleLogin(t: UserTable, credential: Option<string>): (r: Reply)
    ensures r.status == 200 && r.table == t
    ensures r.body == StubBody("Google login successful", StubEmail)
  {
    Reply(200, StubBody("Google login successful", StubEmail), t)
  }

  /** Round trip: whoever registered with a password can log in with it and
      gets back the record the registration returned. */
  lemma RegisterThenLogin(t: UserTable, req: RegisterRequest)
    requires Register(t, req).status == 200
    requires req.password.Some?
    ensures var reg := Register(t, req);
            var log := Login(reg.table, req.email, req.password);
            log.status == 200 && log.body.user == reg.body.user
  {
    var reg := Register(t, req);
    var rows := reg.table.rows;
    assert Matches(rows[t.nextId], req.email, req.password);
    assert forall id | id in rows && Matches(rows[id], req.email, req.password) :: id == t.nextId by {
      forall id | id in rows && Matches(rows[id], req.email, req.password) ensures id == t.nextId {
        if id != t.nextId {
          assert id in t.rows && Clashes(t.rows[id], req);
        }
      }
    }
    var ids := set id | id in rows && Matches(rows[id], req.email, req.password);
    assert ids == {t.nextId};
  }

  /** Under sequential registrations e-mails and user names stay unique. */
  lemma {:induction false} RegistrationsKeepUnique(t: UserTable, reqs: seq<RegisterRequest>)
    requires Unique(t)
    ensures Unique(RegisterAll(t, reqs))
    decreases |reqs|
  {
    if |reqs| > 0 {
      RegistrationsKeepUnique(Register(t, reqs[0]).table, reqs[1..]);
    }
  }

  /** Under sequential registrations the key sequence stays above every
      stored id, so a registration without a clash and with both fields
      always succeeds. */
  lemma {:induction false} RegistrationsKeepValid(t: UserTable, reqs: seq<RegisterRequest>)
    requires Valid(t)
    ensures Valid(RegisterAll(t, reqs))
    decreases |reqs|
  {
    if |reqs| > 0 {
      RegistrationsKeepValid(Register(t, reqs[0]).table, reqs[1..]);
    }
  }

  /** The table after a run of registrations, one after the other. */
  function RegisterAll(t: UserTable, reqs: seq<RegisterRequest>): UserTable
    decreases |reqs|
  {
    if |reqs| == 0 then t else RegisterAll(Register(t, reqs[0]).table, reqs[1..])
  }

  /** The password never reaches the registration response: two
      registrations that differ only in the password answer identically. */
  lemma ResponsesHidePassword(t: UserTable, req: RegisterRequest, other: Option<string>)
    ensures Register(t, req).body == Register(t, req.(password := other)).body
  {
    assert forall id | id in t.rows :: Clashes(t.rows[id], req) == Clashes(t.rows[id], req.(password := other));
  }
}

=== FILE: calendar.dfy ===
/** The schedule controller of the MySQL backend: list a group's schedules and
    create one, which first creates a Google Calendar event and then stores the
    row. The calendar call is foreign: its outcome is a parameter, and each
    reply records the request it would have been sent, if any. Times are
    integer timestamps. */
module CalendarController {
  import opened Common
  import opened Sorting
  import opened Tables

  /** The text of the `attendees` column as `JSON.parse` reads it: a list of
      e-mails, or text that is not JSON and makes it throw. */
  datatype AttendeesText = ParsesTo(emails: seq<string>) | NotJson

  /** A row of `schedules`. `None` in `attendees` stands for `NULL` or the
      empty string, which the listing replaces by `"[]"`. */
  datatype Schedule = Schedule(
    groupId: int,
    title: Option<string>,
    description: Option<string>,
    start: int,
    end: int,
    location: Option<string>,
    attendees: Option<AttendeesText>,
    googleEventId: Option<string>,
    meetingType: Option<string>,
    meetingLink: Option<string>)

  datatype ScheduleTable = ScheduleTable(rows: map<int, Schedule>, nextId: int)

  /** A schedule as the responses show it. */
  datatype ScheduleView = ScheduleView(
    id: int,
    groupId: int,
    title: Option<string>,
    description: Option<string>,
    start: int,
    end: int,
    location: Option<string>,
    attendees: seq<string>,
    googleEventId: Option<string>,
    meetingType: string,
    meetingLink: Option<string>)

  /** The body of a create request; an absent field is `None`. */
  datatype ScheduleRequest = ScheduleRequest(
    title: Option<string>,
    start: Option<int>,
    end: Option<int>,
    location: Option<string>,
    description: Option<string>,
    meetingType: Option<string>)

  /** What is handed to the calendar helper. */
  datatype EventRequest = EventRequest(
    title: string,
    description: string,
    location: string,
    start: int,
    end: int,
    meetingType: string)

  /** The outcome of the calendar call: the new event, or a thrown error. */
  datatype CalendarResult = EventCreated(eventId: string, hangoutLink: Option<string>) | CallFailed

  datatype Body =
    | ScheduleList(schedules: seq<ScheduleView>)
    | ScheduleCreated(success: bool, schedule: ScheduleView)
    | MeetLink(meetingLink: Option<string>)
    | Failure(success: bool, message: string)
    | Message(message: string)

  /** `sent` is the calendar request the handler issued, `None` if it made
      none. */
  datatype Reply = Reply(status: int, body: Body, table: ScheduleTable, sent: Option<EventRequest>)

  const Required := Failure(false, "Title, start, and end are required")
  const CreateFailed := Failure(false, "Failed to create event")
  const DbError := Message("DB Error")
  const MeetLinkFailed := Message("Failed to generate Google Meet link")

  /** The auto-increment counter is above every stored id. */
  predicate Valid(t: ScheduleTable) {
    forall id | id in t.rows :: id < t.nextId
  }

  /** `!title || !start || !end`. */
  predicate MissingRequired(req: ScheduleRequest) {
    !TruthyStr(req.title) || !TruthyInt(req.start) || !TruthyInt(req.end)
  }

  /** The calendar request after the destructuring defaults, which replace
      absent fields only. */
  function EventOf(req: ScheduleRequest): (e: EventRequest)
    requires !MissingRequired(req)
    ensures e.title == req.title.value && e.start == req.start.value && e.end == req.end.value
    ensures req.location.None? ==> e.location == "Online"
    ensures req.location.Some? ==> e.location == req.location.value
    ensures req.description.None? ==> e.description == ""
    ensures req.description.Some? ==> e.description == req.description.value
    ensures req.meetingType.None? ==> e.meetingType == "physical"
    ensures req.meetingType.Some? ==> e.meetingType == req.meetingType.value
  {
    EventRequest(req.title.value, req.description.GetOr(""), req.location.GetOr("Online"),
                 req.start.value, req.end.value, req.meetingType.GetOr("physical"))
  }

  /** The Meet link kept for an event: only online meetings have one, and
      then only a truthy `hangoutLink`. */
  function LinkFor(meetingType: string, hangoutLink: Option<string>): (link: Option<string>)
    ensures link.Some? <==> meetingType == "online" && TruthyStr(hangoutLink)
    ensures link.Some? ==> link == hangoutLink
  {
    if meetingType == "online" then OrNull(hangoutLink) else None
  }

  /** The stored row and the returned schedule agree on every column. */
  predicate Agrees(id: int, s: Schedule, v: ScheduleView) {
    && v.id == id && v.groupId == s.groupId && v.title == s.title
    && v.description == s.description && v.start == s.start && v.end == s.end
    && v.location == s.location && s.attendees == Some(ParsesTo(v.attendees))
    && v.googleEventId == s.googleEventId && s.meetingType == Some(v.meetingType)
    && v.meetingLink == s.meetingLink
  }

  /** `createGroupSchedule`: validate, call the calendar, insert. */
  function CreateGroupSchedule(t: ScheduleTable, groupId: int, req: ScheduleRequest,
                               call: CalendarResult): (r: Reply)
    ensures MissingRequired(req) <==> r.status == 400
    ensures MissingRequired(req) ==> r == Reply(400, Required, t, None)
    ensures !MissingRequired(req) ==> r.sent == Some(EventOf(req))
    ensures call.CallFailed? && !MissingRequired(req) ==> r == Reply(500, CreateFailed, t, r.sent)
    ensures r.status != 201 ==> r.table.rows == t.rows
    ensures r.status == 201 ==>
      && call.EventCreated?
      && t.nextId !in t.rows
      && r.table.rows.Keys == t.rows.Keys + {t.nextId}
      && (forall id | id in t.rows :: r.table.rows[id] == t.rows[id])
      && r.body.ScheduleCreated? && r.body.success
      && Agrees(t.nextId, r.table.rows[t.nextId], r.body.schedule)
      && var v, e := r.body.schedule, EventOf(req);
      && v.groupId == groupId && v.title == Some(e.title) && v.description == Some(e.description)
      && v.start == e.start && v.end == e.end && v.location == Some(e.location)
      && v.attendees == [] && v.googleEventId == Some(call.eventId)
      && v.meetingType == e.meetingType
      && (v.meetingLink.Some? ==> e.meetingType == "online" && v.meetingLink == call.hangoutLink)
      && (e.meetingType == "online" && TruthyStr(call.hangoutLink) ==> v.meetingLink.Some?)
    ensures Valid(t) && !MissingRequired(req) && call.EventCreated? ==> r.status == 201
    ensures Valid(t) ==> Valid(r.table)
  {
    if MissingRequired(req) then Reply(400, Required, t, None)
    else
      var e := EventOf(req);
      match call
      case CallFailed => Reply(500, CreateFailed, t, Some(e))
      case EventCreated(eventId, hangoutLink) =>
        var link := LinkFor(e.meetingType, hangoutLink);
        if t.nextId in t.rows then
          // a duplicate key; the auto-increment value is spent
          Reply(500, CreateFailed, t.(nextId := t.nextId + 1), Some(e))
        else
          var s := Schedule(groupId, Some(e.title), Some(e.description), e.start, e.end,
                            Some(e.location), Some(ParsesTo([])), Some(eventId), Some(e.meetingType), link);
          var v := ScheduleView(t.nextId, groupId, Some(e.title), Some(e.description), e.start, e.end,
                                Some(e.location), [], Some(eventId), e.meetingType, link);
          Reply(201, ScheduleCreated(true, v), ScheduleTable(t.rows[t.nextId := s], t.nextId + 1), Some(e))
  }

  /** `generateMeetLink`: a throw-away online event, only for its link. */
  function GenerateMeetLink(t: ScheduleTable, call: CalendarResult, now: int): (r: Reply)
    ensures r.table == t
    ensures r.sent == Some(EventRequest("Temporary Meeting", "Auto-generated", "Online",
                                        now, now + 30 * 60 * 1000, "online"))
    ensures r.status == 200 <==> call.EventCreated?
    ensures call.EventCreated? ==> r.body == MeetLink(OrNull(call.hangoutLink))
    ensures call.CallFailed? ==> r.status == 500 && r.body == MeetLinkFailed
  {
    var e := EventRequest("Temporary Meeting", "Auto-generated", "Online", now, now + 30 * 60 * 1000, "online");
    match call
    case CallFailed => Reply(500, MeetLinkFailed, t, Some(e))
    case EventCreated(_, hangoutLink) => Reply(200, MeetLink(OrNull(hangoutLink)), t, Some(e))
  }

  /** An online schedule stores the link `generateMeetLink` would hand out
      for the same calendar answer. */
  lemma OnlineScheduleGetsMeetLink(t: ScheduleTable, groupId: int, req: ScheduleRequest,
                                   call: CalendarResult, now: int)
    requires req.meetingType == Some("online")
    requires CreateGroupSchedule(t, groupId, req, call).status == 201
    ensures CreateGroupSchedule(t, groupId, req, call).body.schedule.meetingLink
         == GenerateMeetLink(t, call, now).body.meetingLink
  {
  }

  /** `JSON.parse(attendees || "[]")` does not throw. */
  predicate Parses(s: Schedule) {
    s.attendees != Some(NotJson)
  }

  /** A stored row as the listing shows it: `attendees || "[]"` parsed,
      `meetingType || "physical"`, `meetingLink || null`. */
  function Listed(id: int, s: Schedule): (v: ScheduleView)
    requires Parses(s)
    ensures v.id == id && v.groupId == s.groupId && v.start == s.start
    ensures v.title == s.title && v.description == s.description && v.end == s.end
    ensures v.location == s.location && v.googleEventId == s.googleEventId
    ensures TruthyStr(s.meetingLink) ==> v.meetingLink == s.meetingLink
    ensures !TruthyStr(s.meetingLink) ==> v.meetingLink.None?
    ensures TruthyStr(s.meetingType) ==> v.meetingType == s.meetingType.value
    ensures !TruthyStr(s.meetingType) ==> v.meetingType == "physical"
    ensures s.attendees.Some? ==> v.attendees == s.attendees.value.emails
    ensures s.attendees.None? ==> v.attendees == []
  {
    ScheduleView(id, s.groupId, s.title, s.description, s.start, s.end, s.location,
                 s.attendees.GetOr(ParsesTo([])).emails, s.googleEventId, OrStr(s.meetingType, "physical"),
                 OrNull(s.meetingLink))
  }

  /** `WHERE groupId = ?` over rows in id order. */
  function InGroup(rows: seq<Row<Schedule>>, groupId: int): (r: seq<Row<Schedule>>)
    ensures forall x | x in r :: x in rows && x.data.groupId == groupId
    ensures forall x | x in rows && x.data.groupId == groupId :: x in r
    ensures AscendingIds(rows) ==> AscendingIds(r)
  {
    if |rows| == 0 then []
    else
      var rest := InGroup(rows[1..], groupId);
      assert AscendingIds(rows) ==> forall x | x in rest :: rows[0].id < x.id by {
        forall x | x in rest && AscendingIds(rows) ensures rows[0].id < x.id {
          var k :| 0 < k < |rows| && rows[k] == x;
        }
      }
      if rows[0].data.groupId == groupId then [rows[0]] + rest else rest
  }

  /** The rows as the listing shows them, in the same order. */
  function Views(rows: seq<Row<Schedule>>): (views: seq<ScheduleView>)
    requires forall x | x in rows :: Parses(x.data)
    ensures |views| == |rows|
    ensures forall k | 0 <= k < |rows| :: views[k] == Listed(rows[k].id, rows[k].data)
  {
    seq(|rows|, k requires 0 <= k < |rows| && Parses(rows[k].data) => Listed(rows[k].id, rows[k].data))
  }

  /** Rows with distinct ids show as distinct views. */
  lemma ViewsNoDup(rows: seq<Row<Schedule>>)
    requires AscendingIds(rows)
    requires forall x | x in rows :: Parses(x.data)
    ensures NoDup(Views(rows))
  {
    var views := Views(rows);
    forall i, j | 0 <= i < j < |views| ensures views[i] != views[j] {
      assert views[i].id == rows[i].id;
    }
  }

  function StartOf(v: ScheduleView): int { v.start }

  /** The group's rows, in id order. */
  function GroupRows(t: ScheduleTable, groupId: int): (rows: seq<Row<Schedule>>)
    ensures AscendingIds(rows)
    ensures forall x | x in rows :: x.id in t.rows && t.rows[x.id] == x.data && x.data.groupId == groupId
    ensures forall id | id in t.rows && t.rows[id].groupId == groupId :: Row(id, t.rows[id]) in rows
  {
    EntriesSpec(t.rows);
    InGroup(Entries(t.rows), groupId)
  }

  /** Every row of the group has attendees text `JSON.parse` accepts. */
  predicate GroupParses(t: ScheduleTable, groupId: int) {
    forall id | id in t.rows && t.rows[id].groupId == groupId :: Parses(t.rows[id])
  }

  /** `getGroupSchedules`: the group's rows, by start ascending, with the
      listing defaults. Rows with the same start keep id order. One row whose
      attendees text is not JSON makes the whole listing fail. */
  function GetGroupSchedules(t: ScheduleTable, groupId: int): (r: Reply)
    ensures r.table == t && r.sent == None
    ensures r.status == 200 <==> GroupParses(t, groupId)
    ensures !GroupParses(t, groupId) ==> r.status == 500 && r.body == DbError
    ensures r.status == 200 ==>
      && r.body.ScheduleList?
      && SortedBy(StartOf, r.body.schedules)
      && multiset(r.body.schedules) == multiset(Views(GroupRows(t, groupId)))
  {
    if !GroupParses(t, groupId) then Reply(500, DbError, t, None)
    else Reply(200, ScheduleList(SortBy(StartOf, Views(GroupRows(t, groupId)))), t, None)
  }

  /** Everything listed is a row of the group, shown with the defaults. */
  lemma GroupSchedulesSound(t: ScheduleTable, groupId: int)
    requires GroupParses(t, groupId)
    ensures forall v | v in GetGroupSchedules(t, groupId).body.schedules ::
              && v.id in t.rows && t.rows[v.id].groupId == groupId && Parses(t.rows[v.id])
              && v == Listed(v.id, t.rows[v.id])
  {
    var rows := GroupRows(t, groupId);
    var views := Views(rows);
    var list := GetGroupSchedules(t, groupId).body.schedules;
    forall v | v in list
      ensures && v.id in t.rows && t.rows[v.id].groupId == groupId && Parses(t.rows[v.id])
              && v == Listed(v.id, t.rows[v.id])
    {
      assert v in multiset(views);
      var k :| 0 <= k < |views| && views[k] == v;
      assert rows[k] in rows;
    }
  }

  /** Every row of the group is listed exactly once. */
  lemma GroupSchedulesComplete(t: ScheduleTable, groupId: int)
    requires GroupParses(t, groupId)
    ensures forall id | id in t.rows && t.rows[id].groupId == groupId ::
              multiset(GetGroupSchedules(t, groupId).body.schedules)[Listed(id, t.rows[id])] == 1
  {
    var rows := GroupRows(t, groupId);
    var views := Views(rows);
    ViewsNoDup(rows);
    forall id | id in t.rows && t.rows[id].groupId == groupId
      ensures multiset(views)[Listed(id, t.rows[id])] == 1
    {
      var k :| 0 <= k < |rows| && rows[k] == Row(id, t.rows[id]);
      assert views[k] == Listed(id, t.rows[id]);
      NoDupOccursOnce(views, Listed(id, t.rows[id]));
    }
  }

  /** A schedule just created shows up, as returned, in its group's listing
      (unless its meeting type was the empty string, which the listing shows
      as "physical"). The new row's attendees text always parses, so the
      listing fails afterwards exactly when it failed before. */
  lemma CreateThenList(t: ScheduleTable, groupId: int, req: ScheduleRequest, call: CalendarResult)
    requires CreateGroupSchedule(t, groupId, req, call).status == 201
    requires req.meetingType != Some("")
    ensures var c := CreateGroupSchedule(t, groupId, req, call);
            GroupParses(c.table, groupId) == GroupParses(t, groupId)
    ensures var c := CreateGroupSchedule(t, groupId, req, call);
            GroupParses(t, groupId) ==> c.body.schedule in GetGroupSchedules(c.table, groupId).body.schedules
  {
    var c := CreateGroupSchedule(t, groupId, req, call);
    var id := t.nextId;
    assert forall k | k in t.rows :: c.table.rows[k] == t.rows[k];
    if GroupParses(t, groupId) {
      assert Listed(id, c.table.rows[id]) == c.body.schedule;
      GroupSchedulesComplete(c.table, groupId);
    }
  }
}

=== FILE: common.dfy ===
/** Small shared vocabulary of the model: optional values (a JavaScript
    `undefined`/`null` or SQL `NULL` is `None`), the JavaScript truthiness of
    the values the handlers test with `!x` or `x || default`, and
    duplicate-freedom of lists. */
module Common {

  datatype Option<+T> = None | Some(value: T) {

    /** Returns the value inside Some, or `default` for None. */
    function GetOr(default: T): T {
      match this
      case Some(v) => v
      case None => default
    }
  }

  /** A string field is truthy in JavaScript when it is present and non-empty. */
  predicate TruthyStr(s: Option<string>) {
    s.Some? && s.value != ""
  }

  /** `s || fallback` on an optional string. */
  function OrStr(s: Option<string>, fallback: string): (r: string)
    ensures TruthyStr(s) ==> r == s.value
    ensures !TruthyStr(s) ==> r == fallback
  {
    if TruthyStr(s) then s.value else fallback
  }

  /** `s || null` on an optional string: the empty string becomes null too. */
  function OrNull(s: Option<string>): (r: Option<string>)
    ensures r.Some? <==> TruthyStr(s)
    ensures r.Some? ==> r == s
  {
    if TruthyStr(s) then s else None
  }

  /** A number (an integer column or id) is truthy when present and non-zero. */
  predicate TruthyInt(n: Option<int>) {
    n.Some? && n.value != 0
  }

  /** No element occurs twice. */
  predicate NoDup<T(==)>(s: seq<T>) {
    forall i, j | 0 <= i < j < |s| :: s[i] != s[j]
  }

  /** `t` is `s` with some elements dropped and the rest kept in order. */
  predicate IsSubsequence<T(==)>(t: seq<T>, s: seq<T>) {
    if |t| == 0 then true
    else if |s| == 0 then false
    else if t[0] == s[0] then IsSubsequence(t[1..], s[1..])
    else IsSubsequence(t, s[1..])
  }

  /** In a duplicate-free sequence every element occurs exactly once. */
  lemma {:induction false} NoDupOccursOnce<T>(s: seq<T>, x: T)
    requires NoDup(s) && x in s
    ensures multiset(s)[x] == 1
  {
    assert s == [s[0]] + s[1..];
    assert NoDup(s[1..]) by {
      forall i, j | 0 <= i < j < |s[1..]| ensures s[1..][i] != s[1..][j] {
        assert s[1..][i] == s[i + 1] && s[1..][j] == s[j + 1];
      }
    }
    if s[0] == x {
      assert x !in s[1..] by {
        forall i | 0 <= i < |s[1..]| ensures s[1..][i] != x {
          assert s[1..][i] == s[i + 1];
        }
      }
    } else {
      NoDupOccursOnce(s[1..], x);
    }
  }

  /** Two duplicate-free sequences with no element in common concatenate to a
      duplicate-free one. */
  lemma NoDupConcat<T>(a: seq<T>, b: seq<T>)
    requires NoDup(a) && NoDup(b)
    requires forall x | x in b :: x !in a
    ensures NoDup(a + b)
  {
    var c := a + b;
    forall i, j | 0 <= i < j < |c| ensures c[i] != c[j] {
      if j < |a| {
        assert c[i] == a[i] && c[j] == a[j];
      } else if |a| <= i {
        assert c[i] == b[i - |a|] && c[j] == b[j - |a|];
      } else {
        assert c[i] == a[i] && c[j] == b[j - |a|];
        assert c[j] in b;
      }
    }
  }
}

=== FILE: groups.dfy ===
/** The study-group REST routes of the Node backend (`/api/group`), each a
    transition over the `groups` table that returns a status code, a response
    body and the new table. The queries are written in PostgreSQL's dialect
    and are modelled as such. The table is a map from primary key to row plus
    the value the key column's sequence will hand out next. */
module GroupRoutes {
  import opened Common
  import opened Sorting
  import opened Tables

  /** A row of `groups` in the columns these routes use. `createdAt` is the
      `created_at` default, the insertion time. */
  datatype Group = Group(
    name: Option<string>,
    description: Option<string>,
    subject: Option<string>,
    creatorId: Option<int>,
    createdAt: int)

  /** A row as the database returns it, with its id. */
  type GroupRow = Row<Group>

  datatype GroupTable = GroupTable(rows: map<int, Group>, nextId: int)

  /** The request body of POST and PUT. */
  datatype GroupRequest = GroupRequest(
    name: Option<string>,
    description: Option<string>,
    subject: Option<string>,
    creatorId: Option<int>)

  datatype Body =
    | ListBody(list: seq<GroupRow>)
    | RowBody(note: Option<string>, row: GroupRow)
    | MessageBody(success: bool, message: string)

  datatype Reply = Reply(status: int, body: Body, table: GroupTable)

  const NotFound := MessageBody(false, "Group not found")

  /** The sequence never hands out an id that is already taken. Every handler
      keeps this. */
  predicate Valid(t: GroupTable) {
    forall id | id in t.rows :: id < t.nextId
  }

  function NewestFirst(g: GroupRow): int { -g.data.createdAt }

  /** GET `/` and GET `/list` (the two routes run the same query). */
  function ListGroups(t: GroupTable): (r: Reply)
    ensures r.status == 200 && r.table == t && r.body.ListBody?
    ensures SortedBy(NewestFirst, r.body.list)
  {
    Reply(200, ListBody(SortBy(NewestFirst, Entries(t.rows))), t)
  }

  /** The listing holds exactly the table's rows: as many as there are, each
      a real row under its own id, and each row exactly once. */
  lemma ListGroupsHoldsEachRowOnce(t: GroupTable)
    ensures var list := ListGroups(t).body.list;
            && |list| == |t.rows|
            && (forall g | g in list :: g.id in t.rows && t.rows[g.id] == g.data)
            && (forall id | id in t.rows :: multiset(list)[Row(id, t.rows[id])] == 1)
  {
    var all := Entries(t.rows);
    EntriesSpec(t.rows);
    var list := ListGroups(t).body.list;
    assert multiset(list) == multiset(all);
    assert NoDup(all) by {
      forall i, j | 0 <= i < j < |all| ensures all[i] != all[j] {
        assert all[i].id < all[j].id;
      }
    }
    forall g | g in list ensures g.id in t.rows && t.rows[g.id] == g.data {
      assert g in multiset(list);
      assert g in all;
    }
    forall id | id in t.rows ensures multiset(list)[Row(id, t.rows[id])] == 1 {
      NoDupOccursOnce(all, Row(id, t.rows[id]));
    }
  }

  /** The listing is newest first. */
  lemma ListGroupsNewestFirst(t: GroupTable)
    ensures var list := ListGroups(t).body.list;
            forall i, j | 0 <= i < j < |list| :: list[i].data.createdAt >= list[j].data.createdAt
  {
    var list := ListGroups(t).body.list;
    assert forall i, j | 0 <= i < j < |list| :: NewestFirst(list[i]) <= NewestFirst(list[j]);
  }

  /** GET `/:id`. */
  function GetGroup(t: GroupTable, id: int): (r: Reply)
    ensures r.table == t
    ensures id !in t.rows ==> r.status == 404 && r.body == NotFound
    ensures id in t.rows ==> r.status == 200 && r.body == RowBody(None, Row(id, t.rows[id]))
  {
    if id !in t.rows then Reply(404, NotFound, t)
    else Reply(200, RowBody(None, Row(id, t.rows[id])), t)
  }

  /** POST `/`. Name, subject and creator id must be truthy. The new row takes
      the next sequence value; if that id is somehow taken the insert fails
      (500) and, as with any sequence value, it is still consumed. */
  function CreateGroup(t: GroupTable, req: GroupRequest, now: int): (r: Reply)
    ensures !TruthyStr(req.name) || !TruthyStr(req.subject) || !TruthyInt(req.creatorId) ==>
      r.status == 400 && r.table == t && r.body.MessageBody? && !r.body.success
    ensures r.status == 201 ==>
      && r.table.rows.Keys == t.rows.Keys + {t.nextId}
      && t.nextId !in t.rows
      && r.table.rows[t.nextId] == Group(req.name, req.description, req.subject, req.creatorId, now)
      && (forall id | id in t.rows :: r.table.rows[id] == t.rows[id])
      && r.body == RowBody(Some("Group created successfully"), Row(t.nextId, r.table.rows[t.nextId]))
    ensures r.status != 201 ==> r.table.rows == t.rows
    ensures Valid(t) && TruthyStr(req.name) && TruthyStr(req.subject) && TruthyInt(req.creatorId) ==>
      r.status == 201
    ensures Valid(t) ==> Valid(r.table)
  {
    if !TruthyStr(req.name) || !TruthyStr(req.subject) || !TruthyInt(req.creatorId) then
      Reply(400, MessageBody(false, "Name, subject, and creator_id are required"), t)
    else if t.nextId in t.rows then
      Reply(500, MessageBody(false, "Failed to create group"), t.(nextId := t.nextId + 1))
    else
      var g := Group(req.name, req.description, req.subject, req.creatorId, now);
      Reply(201, RowBody(Some("Group created successfully"), Row(t.nextId, g)),
            GroupTable(t.rows[t.nextId := g], t.nextId + 1))
  }

  /** PUT `/:id`: overwrites name, description and subject with whatever the
      request carries, absent values included; there is no validation. */
  function UpdateGroup(t: GroupTable, id: int, req: GroupRequest): (r: Reply)
    ensures id !in t.rows ==> r.status == 404 && r.body == NotFound && r.table == t
    ensures id in t.rows ==>
      && r.status == 200
      && r.table.nextId == t.nextId
      && r.table.rows.Keys == t.rows.Keys
      && (forall other | other in t.rows && other != id :: r.table.rows[other] == t.rows[other])
      && r.table.rows[id].name == req.name
      && r.table.rows[id].description == req.description
      && r.table.rows[id].subject == req.subject
      && r.table.rows[id].creatorId == t.rows[id].creatorId
      && r.table.rows[id].createdAt == t.rows[id].createdAt
      && r.body == RowBody(Some("Group updated successfully"), Row(id, r.table.rows[id]))
  {
    if id !in t.rows then Reply(404, NotFound, t)
    else
      var g := t.rows[id].(name := req.name, description := req.description, subject := req.subject);
      Reply(200, RowBody(Some("Group updated successfully"), Row(id, g)),
            t.(rows := t.rows[id := g]))
  }

  /** DELETE `/:id`. */
  function DeleteGroup(t: GroupTable, id: int): (r: Reply)
    ensures id !in t.rows ==> r.status == 404 && r.body == NotFound && r.table == t
    ensures id in t.rows ==>
      && r.status == 200
      && r.body == MessageBody(true, "Group deleted successfully")
      && r.table.nextId == t.nextId
      && r.table.rows.Keys == t.rows.Keys - {id}
      && (forall other | other in r.table.rows :: r.table.rows[other] == t.rows[other])
  {
    if id !in t.rows then Reply(404, NotFound, t)
    else Reply(200, MessageBody(true, "Group deleted successfully"), t.(rows := t.rows - {id}))
  }

  /** Every route keeps the table valid. */
  lemma RoutesPreserveValid(t: GroupTable, id: int, req: GroupRequest, now: int)
    requires Valid(t)
    ensures Valid(CreateGroup(t, req, now).table)
    ensures Valid(UpdateGroup(t, id, req).table)
    ensures Valid(DeleteGroup(t, id).table)
    ensures Valid(GetGroup(t, id).table) && Valid(ListGroups(t).table)
  {
  }

  /** A group just created is what GET `/:id` returns. */
  lemma CreateThenGet(t: GroupTable, req: GroupRequest, now: int)
    requires CreateGroup(t, req, now).status == 201
    ensures var c := CreateGroup(t, req, now);
            GetGroup(c.table, t.nextId).body == RowBody(None, c.body.row)
  {
  }

  /** Deleting a group just created gives back the old rows. */
  lemma CreateThenDelete(t: GroupTable, req: GroupRequest, now: int)
    requires CreateGroup(t, req, now).status == 201
    ensures DeleteGroup(CreateGroup(t, req, now).table, t.nextId).table.rows == t.rows
  {
    var c := CreateGroup(t, req, now).table;
    assert c.rows - {t.nextId} == t.rows;
  }

  /** After a delete the id is gone. */
  lemma DeleteThenGet(t: GroupTable, id: int)
    ensures GetGroup(DeleteGroup(t, id).table, id).status == 404
  {
  }

  /** An update applied twice is the same as once. */
  lemma UpdateIdempotent(t: GroupTable, id: int, req: GroupRequest)
    ensures var once := UpdateGroup(t, id, req);
            UpdateGroup(once.table, id, req).table == once.table
  {
  }
}

=== FILE: profile.dfy ===
/** The profile routes of the MySQL backend: GET `/me` shows the caller's own
    row, PUT `/me` overwrites the editable columns and, when a file came with
    the request, the photo. A stored photo is a bare file name; responses
    show it as a URL under the backend's upload directory. The caller's id is
    the one the authentication middleware put in the request. */
module ProfileRoutes {
  import opened Common
  import opened Users

  /** The columns the two routes select: no password, admin flag or status. */
  datatype ProfileView = ProfileView(
    id: int,
    firstName: Option<string>,
    middleName: Option<string>,
    lastName: Option<string>,
    username: Option<string>,
    email: Option<string>,
    bio: Option<string>,
    profilePhoto: Option<string>)

  datatype Body =
    | ProfileBody(user: ProfileView)
    | MessageBody(message: string)

  datatype Reply = Reply(status: int, body: Body, table: UserTable)

  /** The multipart form fields of PUT `/me`; an absent field is `None` and is
      written as `NULL`. */
  datatype ProfileRequest = ProfileRequest(
    firstName: Option<string>,
    middleName: Option<string>,
    lastName: Option<string>,
    username: Option<string>,
    bio: Option<string>)

  const DefaultBackendUrl := "http://localhost:5000"
  const PhotoDir := "/uploads/profile_photos/"

  /** `process.env.BACKEND_URL || 'http://localhost:5000'`. */
  function BackendUrl(env: Option<string>): (u: string)
    ensures u != ""
    ensures TruthyStr(env) ==> u == env.value
    ensures !TruthyStr(env) ==> u == DefaultBackendUrl
  {
    OrStr(env, DefaultBackendUrl)
  }

  /** What every photo URL starts with. */
  function PhotoPrefix(env: Option<string>): string {
    BackendUrl(env) + PhotoDir
  }

  /** The public URL of a stored photo file. */
  function PhotoUrl(env: Option<string>, file: string): (url: string)
    ensures |url| == |PhotoPrefix(env)| + |file|
    ensures url[..|PhotoPrefix(env)|] == PhotoPrefix(env)
    ensures url[|PhotoPrefix(env)|..] == file
  {
    PhotoPrefix(env) + file
  }

  /** Stripping the prefix gives back the file name, so two files never share
      a URL. */
  lemma PhotoUrlInjective(env: Option<string>, f1: string, f2: string)
    ensures PhotoUrl(env, f1) == PhotoUrl(env, f2) <==> f1 == f2
  {
    if PhotoUrl(env, f1) == PhotoUrl(env, f2) {
      assert f1 == PhotoUrl(env, f1)[|PhotoPrefix(env)|..];
    }
  }

  /** The photo as a response shows it: a truthy file name becomes its URL;
      `NULL` and the empty name are passed through. */
  function ShownPhoto(env: Option<string>, stored: Option<string>): (shown: Option<string>)
    ensures TruthyStr(stored) ==> shown == Some(PhotoUrl(env, stored.value))
    ensures !TruthyStr(stored) ==> shown == stored
  {
    if TruthyStr(stored) then Some(PhotoUrl(env, stored.value)) else stored
  }

  /** `COALESCE(column, '')`. */
  function Coalesce(column: Option<string>): (c: Option<string>)
    ensures c.Some?
    ensures column.Some? ==> c == column
    ensures column.None? ==> c == Some("")
  {
    Some(column.GetOr(""))
  }

  /** GET `/me`: 404 when the caller has no row; otherwise the row with the
      names and the bio coalesced to "" and the photo as a URL. */
  function GetMe(t: UserTable, caller: int, env: Option<string>): (r: Reply)
    ensures r.table == t
    ensures caller !in t ==> r == Reply(404, MessageBody("User not found \U{2014} wrong ID?"), t)
    ensures caller in t ==> r.status == 200 && r.body.ProfileBody?
    ensures caller in t ==>
      var u, v := t[caller], r.body.user;
      && v.id == caller
      && v.firstName == Coalesce(u.firstName) && v.middleName == Coalesce(u.middleName)
      && v.lastName == Coalesce(u.lastName) && v.bio == Coalesce(u.bio)
      && v.username == u.username && v.email == u.email
      && (TruthyStr(u.profilePhoto) ==> v.profilePhoto == Some(PhotoUrl(env, u.profilePhoto.value)))
      && (!TruthyStr(u.profilePhoto) ==> v.profilePhoto == u.profilePhoto)
  {
    if caller !in t then Reply(404, MessageBody("User not found \U{2014} wrong ID?"), t)
    else
      var u := t[caller];
      Reply(200, ProfileBody(ProfileView(caller, Coalesce(u.firstName), Coalesce(u.middleName),
                                         Coalesce(u.lastName), u.username, u.email,
                                         Coalesce(u.bio), ShownPhoto(env, u.profilePhoto))), t)
  }

  /** The row after the `UPDATE`: the five form fields overwritten, the photo
      only when a file came with the request. */
  function Updated(u: User, req: ProfileRequest, upload: Option<string>): User {
    var v := u.(firstName := req.firstName, middleName := req.middleName, lastName := req.lastName,
                username := req.username, bio := req.bio);
    if TruthyStr(upload) then v.(profilePhoto := upload) else v
  }

  /** PUT `/me`. The response is the row read back after the update, not
      coalesced, with the photo as a URL. When the caller has no row the
      update touches nothing and reading the missing row fails: 500. */
  function UpdateMe(t: UserTable, caller: int, req: ProfileRequest, upload: Option<string>,
                    env: Option<string>): (r: Reply)
    ensures caller !in t ==> r == Reply(500, MessageBody("Database error"), t)
    ensures caller in t ==>
      && r.status == 200
      && r.table.Keys == t.Keys
      && (forall other | other in t && other != caller :: r.table[other] == t[other])
      && var before, after := t[caller], r.table[caller];
      && after.firstName == req.firstName && after.middleName == req.middleName
      && after.lastName == req.lastName && after.username == req.username && after.bio == req.bio
      && (TruthyStr(upload) ==> after.profilePhoto == upload)
      && (!TruthyStr(upload) ==> after.profilePhoto == before.profilePhoto)
      && after.email == before.email && after.password == before.password
      && after.isAdmin == before.isAdmin && after.status == before.status
      && r.body == ProfileBody(ProfileView(caller, req.firstName, req.middleName, req.lastName,
                                           req.username, before.email, req.bio,
                                           ShownPhoto(env, after.profilePhoto)))
  {
    if caller !in t then Reply(500, MessageBody("Database error"), t)
    else
      var u := Updated(t[caller], req, upload);
      Reply(200, ProfileBody(ProfileView(caller, u.firstName, u.middleName, u.lastName, u.username,
                                         u.email, u.bio, ShownPhoto(env, u.profilePhoto))),
            t[caller := u])
  }

  /** Round trip: after a successful update GET `/me` shows the submitted
      values (coalesced), the unchanged e-mail, and the uploaded photo or
      else the previous one. */
  lemma UpdateThenGet(t: UserTable, caller: int, req: ProfileRequest, upload: Option<string>,
                      env: Option<string>)
    requires caller in t
    ensures var v := GetMe(UpdateMe(t, caller, req, upload, env).table, caller, env).body.user;
            && v == ProfileView(caller, Coalesce(req.firstName), Coalesce(req.middleName),
                                Coalesce(req.lastName), req.username, t[caller].email,
                                Coalesce(req.bio),
                                if TruthyStr(upload) then Some(PhotoUrl(env, upload.value))
                                else ShownPhoto(env, t[caller].profilePhoto))
  {
  }

  /** The two routes agree: when every coalesced field was given, the PUT
      response is exactly what a following GET returns. */
  lemma UpdateAnswersLikeGet(t: UserTable, caller: int, req: ProfileRequest, upload: Option<string>,
                             env: Option<string>)
    requires req.firstName.Some? && req.middleName.Some? && req.lastName.Some? && req.bio.Some?
    ensures var put := UpdateMe(t, caller, req, upload, env);
            put.status == 200 ==> put.body == GetMe(put.table, caller, env).body
  {
  }

  /** E-mail survives any run of profile updates, whoever makes them. */
  lemma {:induction false} EmailNeverChanges(t: UserTable, updates: seq<(int, ProfileRequest, Option<string>)>,
                                             env: Option<string>, id: int)
    requires id in t
    ensures id in UpdateAll(t, updates, env) && UpdateAll(t, updates, env)[id].email == t[id].email
    decreases |updates|
  {
    if |updates| > 0 {
      var (caller, req, upload) := updates[0];
      EmailNeverChanges(UpdateMe(t, caller, req, upload, env).table, updates[1..], env, id);
    }
  }

  /** The table after a run of PUT `/me` requests, one after the other. */
  function UpdateAll(t: UserTable, updates: seq<(int, ProfileRequest, Option<string>)>,
                     env: Option<string>): UserTable
    decreases |updates|
  {
    if |updates| == 0 then t
    else
      var (caller, req, upload) := updates[0];
      UpdateAll(UpdateMe(t, caller, req, upload, env).table, updates[1..], env)
  }

  /** Neither route shows a password. */
  lemma ProfileHidesPassword(t1: UserTable, t2: UserTable, caller: int, req: ProfileRequest,
                             upload: Option<string>, env: Option<string>)
    requires SameButPasswords(t1, t2)
    ensures GetMe(t1, caller, env).body == GetMe(t2, caller, env).body
    ensures UpdateMe(t1, caller, req, upload, env).body == UpdateMe(t2, caller, req, upload, env).body
  {
    if caller in t1 {
      assert t1[caller].(password := None) == t2[caller].(password := None);
    }
  }
}

=== FILE: schedules_page.dfy ===
/** The client-side schedule logic of the schedules page: normalising backend
    schedule records, merging them with the user's calendar events, editing the
    attendee list, and the guards in front of "create session". The calendar
    service is an opaque input: the list of events it returned, or a failure.
    Timestamps are integers. */
module SchedulesPage {
  import opened Common
  import opened Sorting
  import opened Text

  /** A record id as the backend may send it: a number or a string. */
  datatype RecordId = NumId(n: int) | TextId(s: string)

  predicate TruthyId(id: Option<RecordId>) {
    match id
    case None => false
    case Some(NumId(n)) => n != 0
    case Some(TextId(s)) => s != ""
  }

  /** A schedule as the backend returns it; every field but the times may be
      missing. `mongoId` is the `_id` field. */
  datatype BackendSchedule = BackendSchedule(
    id: Option<RecordId>,
    mongoId: Option<RecordId>,
    googleEventId: Option<string>,
    title: Option<string>,
    description: Option<string>,
    start: int,
    end: int,
    location: Option<string>,
    attendees: Option<seq<string>>,
    kind: Option<string>)

  datatype Source = Local | Google

  /** The uniform item the page displays, from either source. `kind` is the
      `type` field (group, personal, exam or task). */
  datatype Item = Item(
    source: Source,
    id: Option<RecordId>,
    googleEventId: Option<string>,
    title: Option<string>,
    description: string,
    start: int,
    end: int,
    location: string,
    attendees: seq<string>,
    kind: string)

  /** An event as the calendar service lists it. An all-day event has only a
      date, a timed one also a date-time, which wins. */
  datatype CalendarEvent = CalendarEvent(
    id: string,
    summary: Option<string>,
    description: Option<string>,
    startDateTime: Option<int>,
    startDate: int,
    endDateTime: Option<int>,
    endDate: int,
    location: Option<string>,
    attendees: Option<seq<string>>)

  /** The outcome of listing the calendar (the opaque remote call). */
  datatype CalendarFetch = Fetched(events: seq<CalendarEvent>) | FetchFailed

  function StartOf(i: Item): int { i.start }

  // ---------------------------------------------------------------------
  // normalizeBackend
  // ---------------------------------------------------------------------

  /** One backend record with the page's defaults filled in. */
  function NormalizeItem(s: BackendSchedule): (r: Item)
    ensures r.source == Local
    ensures r.id == (if TruthyId(s.id) then s.id else if TruthyId(s.mongoId) then s.mongoId else None)
    ensures TruthyStr(s.googleEventId) ==> r.googleEventId == s.googleEventId
    ensures !TruthyStr(s.googleEventId) ==> r.googleEventId.None?
    ensures r.title == s.title && r.start == s.start && r.end == s.end
    ensures TruthyStr(s.description) ==> r.description == s.description.value
    ensures !TruthyStr(s.description) ==> r.description == ""
    ensures TruthyStr(s.location) ==> r.location == s.location.value
    ensures !TruthyStr(s.location) ==> r.location == ""
    ensures r.attendees == s.attendees.GetOr([])
    ensures r.kind == (if TruthyStr(s.kind) then s.kind.value else "group")
  {
    Item(
      source := Local,
      id := if TruthyId(s.id) then s.id else if TruthyId(s.mongoId) then s.mongoId else None,
      googleEventId := OrNull(s.googleEventId),
      title := s.title,
      description := OrStr(s.description, ""),
      start := s.start,
      end := s.end,
      location := OrStr(s.location, ""),
      attendees := s.attendees.GetOr([]),
      kind := OrStr(s.kind, "group"))
  }

  function NormalizeBackend(list: seq<BackendSchedule>): (r: seq<Item>)
    ensures |r| == |list|
    ensures forall i | 0 <= i < |list| :: r[i] == NormalizeItem(list[i])
  {
    seq(|list|, i requires 0 <= i < |list| => NormalizeItem(list[i]))
  }

  /** The backend record an already normalised local item reads as. */
  function AsBackend(i: Item): BackendSchedule {
    BackendSchedule(i.id, None, i.googleEventId, i.title, Some(i.description), i.start, i.end,
                    Some(i.location), Some(i.attendees), Some(i.kind))
  }

  /** Items the page itself produced from backend records. */
  predicate IsNormalLocal(i: Item) {
    && i.source == Local
    && (i.id.Some? ==> TruthyId(i.id))
    && (i.googleEventId.Some? ==> i.googleEventId.value != "")
    && i.kind != ""
  }

  /** Normalisation is idempotent: normalising the output again, read back as
      a backend record, gives the same item. */
  lemma NormalizeIdempotent(s: BackendSchedule)
    ensures IsNormalLocal(NormalizeItem(s))
    ensures NormalizeItem(AsBackend(NormalizeItem(s))) == NormalizeItem(s)
  {
  }

  // ---------------------------------------------------------------------
  // mergeWithGoogleEvents
  // ---------------------------------------------------------------------

  /** A calendar event mapped to a displayable item. */
  function FromCalendar(ev: CalendarEvent): (r: Item)
    ensures r.source == Google && r.id.None? && r.googleEventId == Some(ev.id)
    ensures r.kind == "personal"
    ensures TruthyStr(ev.summary) ==> r.title == ev.summary
    ensures !TruthyStr(ev.summary) ==> r.title == Some("(No title)")
    ensures TruthyStr(ev.description) ==> r.description == ev.description.value
    ensures !TruthyStr(ev.description) ==> r.description == ""
    ensures TruthyStr(ev.location) ==> r.location == ev.location.value
    ensures !TruthyStr(ev.location) ==> r.location == ""
    ensures ev.startDateTime.Some? ==> r.start == ev.startDateTime.value
    ensures ev.startDateTime.None? ==> r.start == ev.startDate
    ensures ev.endDateTime.Some? ==> r.end == ev.endDateTime.value
    ensures ev.endDateTime.None? ==> r.end == ev.endDate
    ensures ev.attendees.Some? ==> r.attendees == ev.attendees.value
    ensures ev.attendees.None? ==> r.attendees == []
  {
    Item(
      source := Google,
      id := None,
      googleEventId := Some(ev.id),
      title := Some(OrStr(ev.summary, "(No title)")),
      description := OrStr(ev.description, ""),
      start := ev.startDateTime.GetOr(ev.startDate),
      end := ev.endDateTime.GetOr(ev.endDate),
      location := OrStr(ev.location, ""),
      attendees := ev.attendees.GetOr([]),
      kind := "personal")
  }

  /** The index `byGoogleId` built from the normalised backend items holds
      `id`: some item carries that (non-null) calendar id. */
  predicate Indexed(backend: seq<Item>, id: string) {
    exists b | b in backend :: b.googleEventId == Some(id)
  }

  /** Every calendar event as an item, in calendar order. */
  function Calendar(events: seq<CalendarEvent>): (items: seq<Item>)
    ensures |items| == |events|
    ensures forall k | 0 <= k < |events| :: items[k] == FromCalendar(events[k])
  {
    seq(|events|, k requires 0 <= k < |events| => FromCalendar(events[k]))
  }

  /** The calendar items whose id no backend item carries, in calendar order. */
  function Unmatched(backend: seq<Item>, events: seq<CalendarEvent>): (r: seq<Item>)
    ensures forall x | x in r :: x.source == Google
    ensures forall ev | ev in events :: FromCalendar(ev) in r <==> !Indexed(backend, ev.id)
    ensures forall x | x in r :: exists ev | ev in events :: x == FromCalendar(ev)
    ensures IsSubsequence(r, Calendar(events))
  {
    if |events| == 0 then []
    else
      var g := FromCalendar(events[0]);
      var rest := Unmatched(backend, events[1..]);
      assert Calendar(events)[1..] == Calendar(events[1..]);
      assert forall ev | ev in events :: ev == events[0] || ev in events[1..];
      if Indexed(backend, events[0].id) then
        assert forall ev | ev in events[1..] :: FromCalendar(ev) == g ==> ev.id == events[0].id;
        assert g !in rest;
        rest
      else
        assert ([g] + rest)[1..] == rest;
        [g] + rest
  }

  /** `Unmatched` keeps every copy of a calendar item whose id is not
      indexed and drops every other: an exact filter of `Calendar(events)`. */
  lemma {:induction false} UnmatchedCounts(backend: seq<Item>, events: seq<CalendarEvent>, x: Item)
    ensures multiset(Unmatched(backend, events))[x]
         == if x.googleEventId.Some? && Indexed(backend, x.googleEventId.value) then 0
            else multiset(Calendar(events))[x]
  {
    if |events| > 0 {
      var g := FromCalendar(events[0]);
      var rest := Unmatched(backend, events[1..]);
      UnmatchedCounts(backend, events[1..], x);
      assert Calendar(events) == [g] + Calendar(events[1..]);
      if Indexed(backend, events[0].id) {
        assert Unmatched(backend, events) == rest;
      } else {
        assert Unmatched(backend, events) == [g] + rest;
      }
    }
  }

  /** The merge proper, once the calendar has answered with `events`. */
  function MergeFetched(backend: seq<BackendSchedule>, events: seq<CalendarEvent>): (r: seq<Item>)
  {
    var local := NormalizeBackend(backend);
    SortBy(StartOf, local + Unmatched(local, events))
  }

  /** `mergeWithGoogleEvents`: the normalised backend items plus the calendar
      events no backend item already carries, sorted by start; on a failed
      calendar call, just the normalised backend items. */
  function MergeWithCalendar(backend: seq<BackendSchedule>, fetch: CalendarFetch): (r: seq<Item>)
    ensures fetch.FetchFailed? ==> r == NormalizeBackend(backend)
    ensures fetch.Fetched? ==> SortedBy(StartOf, r)
  {
    match fetch
    case FetchFailed => NormalizeBackend(backend)
    case Fetched(events) => MergeFetched(backend, events)
  }

  /** Every normalised backend item survives the merge. */
  lemma MergeKeepsBackend(backend: seq<BackendSchedule>, fetch: CalendarFetch)
    ensures forall i | 0 <= i < |backend| :: NormalizeItem(backend[i]) in MergeWithCalendar(backend, fetch)
  {
    if fetch.Fetched? {
      var local := NormalizeBackend(backend);
      var all := local + Unmatched(local, fetch.events);
      var r := MergeWithCalendar(backend, fetch);
      forall i | 0 <= i < |backend| ensures NormalizeItem(backend[i]) in r {
        assert all[i] == NormalizeItem(backend[i]);
        assert all[i] in multiset(all);
      }
    }
  }

  /** Some backend record carries the calendar id `id` (a falsy id carries
      nothing). */
  predicate Carried(backend: seq<BackendSchedule>, id: string) {
    exists i | 0 <= i < |backend| :: TruthyStr(backend[i].googleEventId) && backend[i].googleEventId.value == id
  }

  /** A calendar event appears in the merge exactly when no backend record
      carries its id. */
  lemma MergeAddsUnmatchedEvents(backend: seq<BackendSchedule>, events: seq<CalendarEvent>, ev: CalendarEvent)
    requires ev in events
    ensures FromCalendar(ev) in MergeWithCalendar(backend, Fetched(events)) <==> !Carried(backend, ev.id)
  {
    var local := NormalizeBackend(backend);
    var extra := Unmatched(local, events);
    var all := local + extra;
    var r := MergeWithCalendar(backend, Fetched(events));
    assert multiset(r) == multiset(all);
    assert FromCalendar(ev) in r <==> FromCalendar(ev) in all by {
      assert FromCalendar(ev) in r <==> FromCalendar(ev) in multiset(r);
      assert FromCalendar(ev) in all <==> FromCalendar(ev) in multiset(all);
    }
    assert FromCalendar(ev) !in local;
    IndexedIffCarried(backend, ev.id);
  }

  /** The index built from the normalised items holds exactly the ids the
      records carry. */
  lemma IndexedIffCarried(backend: seq<BackendSchedule>, id: string)
    ensures Indexed(NormalizeBackend(backend), id) <==> Carried(backend, id)
  {
    var local := NormalizeBackend(backend);
    if Indexed(local, id) {
      var b :| b in local && b.googleEventId == Some(id);
      var i :| 0 <= i < |local| && local[i] == b;
      assert TruthyStr(backend[i].googleEventId) && backend[i].googleEventId.value == id;
    }
    if Carried(backend, id) {
      var i :| 0 <= i < |backend| && TruthyStr(backend[i].googleEventId) && backend[i].googleEventId.value == id;
      assert local[i] in local;
    }
  }

  /** A record without a truthy calendar id carries nothing. */
  lemma CarriedAppend(backend: seq<BackendSchedule>, s: BackendSchedule, id: string)
    requires !TruthyStr(s.googleEventId)
    ensures Carried(backend + [s], id) <==> Carried(backend, id)
  {
    var both := backend + [s];
    if Carried(both, id) {
      var i :| 0 <= i < |both| && TruthyStr(both[i].googleEventId) && both[i].googleEventId.value == id;
      assert both[|backend|] == s;
      assert i < |backend| && both[i] == backend[i];
    }
    if Carried(backend, id) {
      var i :| 0 <= i < |backend| && TruthyStr(backend[i].googleEventId) && backend[i].googleEventId.value == id;
      assert both[i] == backend[i];
    }
  }

  /** A backend record with a null (or empty) calendar id suppresses no
      calendar event: adding it changes nothing about which events show. */
  lemma NullCalendarIdSuppressesNothing(backend: seq<BackendSchedule>, s: BackendSchedule,
                                        events: seq<CalendarEvent>, ev: CalendarEvent)
    requires ev in events
    requires !TruthyStr(s.googleEventId)
    ensures FromCalendar(ev) in MergeWithCalendar(backend + [s], Fetched(events))
        <==> FromCalendar(ev) in MergeWithCalendar(backend, Fetched(events))
  {
    MergeAddsUnmatchedEvents(backend + [s], events, ev);
    MergeAddsUnmatchedEvents(backend, events, ev);
    CarriedAppend(backend, s, ev.id);
  }

  /** The merge is a permutation of the backend items followed by the
      unmatched calendar items, and the sort is stable: items with equal start
      keep that order. */
  lemma MergeIsStablePermutation(backend: seq<BackendSchedule>, events: seq<CalendarEvent>, t: int)
    ensures var local := NormalizeBackend(backend);
            var all := local + Unmatched(local, events);
            var r := MergeWithCalendar(backend, Fetched(events));
            && multiset(r) == multiset(all)
            && WithKey(StartOf, r, t) == WithKey(StartOf, all, t)
  {
    var local := NormalizeBackend(backend);
    SortIsStable(StartOf, local + Unmatched(local, events), t);
  }

  /** Property names every plain JavaScript object inherits from
      `Object.prototype`; each lookup of one of them yields a truthy value. */
  const InheritedKeys: set<string> := {
    "constructor", "hasOwnProperty", "isPrototypeOf", "propertyIsEnumerable",
    "toLocaleString", "toString", "valueOf", "__proto__",
    "__defineGetter__", "__defineSetter__", "__lookupGetter__", "__lookupSetter__"
  }

  /** The merge as written: the index is a plain object, so `byGoogleId[id]`
      is also truthy for an inherited property name. */
  function UnmatchedAsWritten(backend: seq<Item>, events: seq<CalendarEvent>): (r: seq<Item>)
    ensures forall x | x in r :: x.googleEventId.Some? && x.googleEventId.value !in InheritedKeys
    ensures forall ev | ev in events && ev.id in InheritedKeys :: FromCalendar(ev) !in r
  {
    if |events| == 0 then []
    else
      var rest := UnmatchedAsWritten(backend, events[1..]);
      if Indexed(backend, events[0].id) || events[0].id in InheritedKeys then rest
      else [FromCalendar(events[0])] + rest
  }

  function MergeFetchedAsWritten(backend: seq<BackendSchedule>, events: seq<CalendarEvent>): seq<Item> {
    var local := NormalizeBackend(backend);
    SortBy(StartOf, local + UnmatchedAsWritten(local, events))
  }

  /** "constructor" is a well-formed calendar event id (lower-case base32hex,
      at least five characters). With no backend records at all, the code as
      written drops such an event, while the intended merge shows it. */
  lemma InheritedKeyDropsEvent(ev: CalendarEvent)
    requires ev.id == "constructor"
    ensures FromCalendar(ev) !in MergeFetchedAsWritten([], [ev])
    ensures FromCalendar(ev) in MergeWithCalendar([], Fetched([ev]))
  {
    assert "constructor" in InheritedKeys;
    MergeAddsUnmatchedEvents([], [ev], ev);
    var r := MergeFetchedAsWritten([], [ev]);
    assert UnmatchedAsWritten([], [ev]) == [];
    assert multiset(r) == multiset{};
    assert |r| == 0;
  }

  // ---------------------------------------------------------------------
  // Attendees
  // ---------------------------------------------------------------------

  /** What the attendee form holds after "add": the list, the input box, and
      whether an "invalid e-mail" alert was shown. */
  datatype AddResult = AddResult(attendees: seq<string>, input: string, alerted: bool)

  /** `addAttendeeFromInput`. */
  function AddAttendeeFromInput(input: string, attendees: seq<string>): (r: AddResult)
    ensures AllSpace(input) ==> r == AddResult(attendees, input, false)
    ensures !AllSpace(input) && !EmailShape(Trim(input)) ==> r == AddResult(attendees, input, true)
    ensures !AllSpace(input) && EmailShape(Trim(input)) ==>
      && r.input == ""
      && !r.alerted
      && Trim(input) in r.attendees
      && |attendees| <= |r.attendees| <= |attendees| + 1
      && r.attendees[..|attendees|] == attendees
      && (Trim(input) !in attendees ==> r.attendees == attendees + [Trim(input)])
      && (Trim(input) in attendees ==> r.attendees == attendees)
    ensures NoDup(attendees) ==> NoDup(r.attendees)
  {
    var email := Trim(input);
    if email == "" then AddResult(attendees, input, false)
    else if !EmailShape(email) then AddResult(attendees, input, true)
    else if email in attendees then AddResult(attendees, "", false)
    else AddResult(attendees + [email], "", false)
  }

  /** `removeAttendee`: keeps, in order, every entry other than `email`. */
  function RemoveAttendee(attendees: seq<string>, email: string): (r: seq<string>)
    ensures email !in r
    ensures forall x | x != email :: x in r <==> x in attendees
    ensures IsSubsequence(r, attendees)
    ensures |r| == |attendees| - multiset(attendees)[email]
  {
    if |attendees| == 0 then []
    else
      var rest := RemoveAttendee(attendees[1..], email);
      assert attendees == [attendees[0]] + attendees[1..];
      assert forall x | x in attendees :: x == attendees[0] || x in attendees[1..];
      if attendees[0] == email then
        SubsequenceSkip(rest, attendees[1..], attendees[0]);
        rest
      else
        assert ([attendees[0]] + rest)[1..] == rest;
        [attendees[0]] + rest
  }

  lemma {:induction false} SubsequenceSkip(t: seq<string>, s: seq<string>, x: string)
    requires IsSubsequence(t, s)
    ensures IsSubsequence(t, [x] + s)
    decreases |s|, 1
  {
    assert ([x] + s)[1..] == s;
    if |t| > 0 && t[0] == x {
      // take the fresh head instead of skipping it: t[1..] must sit inside s
      SubsequenceTail(t, s);
    }
  }

  lemma {:induction false} SubsequenceTail(t: seq<string>, s: seq<string>)
    requires |t| > 0 && IsSubsequence(t, s)
    ensures IsSubsequence(t[1..], s)
    decreases |s|, 0
  {
    if t[0] != s[0] {
      SubsequenceTail(t, s[1..]);
      SubsequenceSkip(t[1..], s[1..], s[0]);
      assert [s[0]] + s[1..] == s;
    } else {
      SubsequenceSkip(t[1..], s[1..], s[0]);
      assert [s[0]] + s[1..] == s;
    }
  }

  /** Removing what was just added restores the list. */
  lemma AddThenRemove(input: string, attendees: seq<string>)
    requires EmailShape(Trim(input))
    requires Trim(input) !in attendees
    ensures RemoveAttendee(AddAttendeeFromInput(input, attendees).attendees, Trim(input)) == attendees
  {
    RemoveAbsentAppended(attendees, Trim(input));
  }

  lemma {:induction false} RemoveAbsentAppended(attendees: seq<string>, email: string)
    requires email !in attendees
    ensures RemoveAttendee(attendees + [email], email) == attendees
  {
    if |attendees| == 0 {
      assert [email][1..] == [];
    } else {
      assert (attendees + [email])[1..] == attendees[1..] + [email];
      RemoveAbsentAppended(attendees[1..], email);
      assert attendees == [attendees[0]] + attendees[1..];
    }
  }

  /** Adding the same input a second time changes nothing. */
  lemma AddTwice(input: string, attendees: seq<string>)
    ensures var once := AddAttendeeFromInput(input, attendees);
            !once.alerted && once.input == "" ==>
              AddAttendeeFromInput(input, once.attendees).attendees == once.attendees
  {
  }

  /** The merge of a group's member e-mails into the attendee list in
      `fetchGroupMembers`: the old list stays as a prefix, and each member
      e-mail not yet present is appended once, in member order. */
  method ImportMembers(prev: seq<string>, members: seq<string>) returns (merged: seq<string>)
    ensures |merged| >= |prev| && merged[..|prev|] == prev
    ensures forall m | m in members :: m in merged
    ensures forall x | x in merged[|prev|..] :: x in members && x !in prev
    ensures NoDup(merged[|prev|..])
    ensures NoDup(prev) ==> NoDup(merged)
    ensures IsSubsequence(merged[|prev|..], members)
  {
    var extra: seq<string> := [];
    var i := 0;
    while i < |members|
      invariant 0 <= i <= |members|
      invariant forall m | m in members[..i] :: m in prev || m in extra
      invariant forall x | x in extra :: x in members[..i] && x !in prev
      invariant NoDup(extra)
      invariant IsSubsequence(extra, members[..i])
    {
      var m := members[i];
      assert members[..i + 1] == members[..i] + [m];
      if m !in prev && m !in extra {
        SubsequenceAppend(extra, members[..i], m);
        extra := extra + [m];
      } else {
        SubsequenceExtend(extra, members[..i], m);
      }
      i := i + 1;
    }
    assert members[..i] == members;
    merged := prev + extra;
    assert merged[..|prev|] == prev && merged[|prev|..] == extra;
    if NoDup(prev) {
      NoDupConcat(prev, extra);
    }
  }

  lemma {:induction false} SubsequenceAppend(t: seq<string>, s: seq<string>, x: string)
    requires IsSubsequence(t, s)
    ensures IsSubsequence(t + [x], s + [x])
    decreases |s|
  {
    if |t| == 0 {
      assert t + [x] == [x];
      SubsequenceOfSingleton(s, x);
    } else {
      assert (t + [x])[1..] == t[1..] + [x];
      assert (s + [x])[1..] == s[1..] + [x];
      if t[0] == s[0] {
        SubsequenceAppend(t[1..], s[1..], x);
      } else {
        SubsequenceAppend(t, s[1..], x);
      }
    }
  }

  lemma {:induction false} SubsequenceOfSingleton(s: seq<string>, x: string)
    ensures IsSubsequence([x], s + [x])
    decreases |s|
  {
    if |s| == 0 {
      assert [x][1..] == [];
    } else {
      assert (s + [x])[1..] == s[1..] + [x];
      SubsequenceOfSingleton(s[1..], x);
    }
  }

  lemma {:induction false} SubsequenceExtend(t: seq<string>, s: seq<string>, x: string)
    requires IsSubsequence(t, s)
    ensures IsSubsequence(t, s + [x])
    decreases |s|
  {
    if |t| > 0 && |s| > 0 {
      assert (s + [x])[1..] == s[1..] + [x];
      if t[0] == s[0] {
        SubsequenceExtend(t[1..], s[1..], x);
      } else {
        SubsequenceExtend(t, s[1..], x);
      }
    }
  }

  /** `fetchGroupMembers`: nothing happens without a selected group; a failed
      member request leaves the list as it was and shows an alert. `members`
      is the member list the server returned, or None when the request
      failed. */
  method FetchGroupMembers(groupId: Option<string>, members: Option<seq<string>>, prev: seq<string>)
    returns (attendees: seq<string>, alerted: bool)
    ensures !TruthyStr(groupId) ==> attendees == prev && !alerted
    ensures TruthyStr(groupId) && members.None? ==> attendees == prev && alerted
    ensures |attendees| >= |prev|
    ensures TruthyStr(groupId) && members.Some? ==>
      && !alerted
      && attendees[..|prev|] == prev
      && (forall m | m in members.value :: m in attendees)
      && (forall x | x in attendees[|prev|..] :: x in members.value && x !in prev)
      && NoDup(attendees[|prev|..])
      && (NoDup(prev) ==> NoDup(attendees))
  {
    alerted := false;
    attendees := prev;
    if TruthyStr(groupId) {
      match members {
        case None =>
          alerted := true;
        case Some(ms) =>
          attendees := ImportMembers(prev, ms);
      }
    }
  }

  // ---------------------------------------------------------------------
  // handleCreate
  // ---------------------------------------------------------------------

  /** The form state `handleCreate` reads. `userId` is the stored app user id
      (an empty stored value reads as null); `start`/`end` are None when the
      field is empty. */
  datatype SessionForm = SessionForm(
    userId: Option<string>,
    title: string,
    description: string,
    start: Option<int>,
    end: Option<int>,
    location: string,
    attendees: seq<string>)

  /** The body posted to the backend. */
  datatype SessionPayload = SessionPayload(
    userId: string,
    title: string,
    description: string,
    start: int,
    end: int,
    location: string,
    googleEventId: Option<string>,
    attendees: seq<string>,
    kind: string)

  /** Rejected: an alert and nothing else. Otherwise the payload that was
      posted, whether the calendar was asked first, and whether the save
      succeeded. */
  datatype CreateOutcome =
    | Rejected(alert: string)
    | Submitted(payload: SessionPayload, calendarCalled: bool, saved: bool)

  const NotLoggedIn := "You must be logged in (app account) to create schedules."
  const MissingFields := "Please provide at least a title, start and end time."
  const EndNotAfterStart := "End time must be later than start time."

  /** `handleCreate`. `signedIn` is the calendar sign-in state,
      `calendarEventId` what the calendar insert returned (None on failure),
      `saveSucceeds` whether the backend accepted the post. */
  function HandleCreate(form: SessionForm, signedIn: bool, calendarEventId: Option<string>, saveSucceeds: bool)
    : (r: CreateOutcome)
    ensures r.Rejected? <==>
      (|| !TruthyStr(form.userId) || form.title == "" || form.start.None? || form.end.None?
       || form.end.value <= form.start.value)
    ensures !TruthyStr(form.userId) ==> r == Rejected(NotLoggedIn)
    ensures TruthyStr(form.userId) && (form.title == "" || form.start.None? || form.end.None?) ==>
      r == Rejected(MissingFields)
    ensures (&& TruthyStr(form.userId) && form.title != "" && form.start.Some? && form.end.Some?
             && form.end.value <= form.start.value) ==> r == Rejected(EndNotAfterStart)
    ensures r.Submitted? ==>
      && r.payload.start == form.start.value < r.payload.end == form.end.value
      && r.payload.userId == form.userId.value
      && r.payload.title == form.title
      && r.payload.description == form.description
      && r.payload.location == form.location
      && r.payload.attendees == form.attendees
      && r.payload.kind == "group"
      && r.calendarCalled == signedIn
      && r.payload.googleEventId == (if signedIn then OrNull(calendarEventId) else None)
      && r.saved == saveSucceeds
  {
    if !TruthyStr(form.userId) then Rejected(NotLoggedIn)
    else if form.title == "" || form.start.None? || form.end.None? then Rejected(MissingFields)
    else if form.end.value <= form.start.value then Rejected(EndNotAfterStart)
    else
      var eventId := if signedIn then OrNull(calendarEventId) else None;
      Submitted(
        SessionPayload(form.userId.value, form.title, form.description, form.start.value,
                       form.end.value, form.location, eventId, form.attendees, "group"),
        signedIn,
        saveSucceeds)
  }
}

=== FILE: sorting.dfy ===
/** A stable sort by an integer key, the behaviour of JavaScript's
    `Array.prototype.sort` with a numeric comparator (stable since ES2019) and
    the ordering used to model SQL `ORDER BY` on one column. It is written as
    insertion sort: the specification is sortedness, permutation and stability,
    proved below, not the algorithm. */
module Sorting {

  /** Keys are non-decreasing along the sequence. */
  predicate SortedBy<T>(key: T -> int, s: seq<T>) {
    forall i, j | 0 <= i < j < |s| :: key(s[i]) <= key(s[j])
  }

  /** The subsequence of `s` whose elements have key `k`, in order. Two
      sequences that agree on this for every `k` order ties the same way. */
  function WithKey<T>(key: T -> int, s: seq<T>, k: int): (r: seq<T>)
    ensures |r| <= |s|
    ensures forall x | x in r :: x in s && key(x) == k
  {
    if |s| == 0 then []
    else (if key(s[0]) == k then [s[0]] else []) + WithKey(key, s[1..], k)
  }

  /** Puts `x` into the sorted `s` in front of the first element whose key is
      not smaller, so that `x` precedes the elements with an equal key. */
  function Insert<T>(key: T -> int, x: T, s: seq<T>): (r: seq<T>)
    requires SortedBy(key, s)
    ensures SortedBy(key, r)
    ensures multiset(r) == multiset(s) + multiset{x}
    ensures |r| == |s| + 1
  {
    if |s| == 0 || key(x) <= key(s[0]) then [x] + s
    else
      assert SortedBy(key, s[1..]) by { SortedTail(key, s); }
      var rest := Insert(key, x, s[1..]);
      assert multiset(s) == multiset{s[0]} + multiset(s[1..]) by {
        assert s == [s[0]] + s[1..];
      }
      LowerBoundKept(key, key(s[0]), x, s[1..], rest);
      SortedCons(key, s[0], rest);
      [s[0]] + rest
  }

  /** A lower bound on the keys of `s` and of `x` bounds every element of a
      sequence holding exactly those elements. */
  lemma LowerBoundKept<T>(key: T -> int, b: int, x: T, s: seq<T>, r: seq<T>)
    requires b <= key(x)
    requires forall i | 0 <= i < |s| :: b <= key(s[i])
    requires multiset(r) == multiset(s) + multiset{x}
    ensures forall y | y in r :: b <= key(y)
  {
    forall y | y in r ensures b <= key(y) {
      assert y in multiset(r);
      if y != x {
        assert y in multiset(s);
        var k :| 0 <= k < |s| && s[k] == y;
      }
    }
  }

  /** An element whose key bounds a sorted sequence from below can go in
      front of it. */
  lemma SortedCons<T>(key: T -> int, h: T, s: seq<T>)
    requires SortedBy(key, s)
    requires forall y | y in s :: key(h) <= key(y)
    ensures SortedBy(key, [h] + s)
  {
    var r := [h] + s;
    forall i, j | 0 <= i < j < |r| ensures key(r[i]) <= key(r[j]) {
      assert r[j] == s[j - 1];
      if i > 0 {
        assert r[i] == s[i - 1];
      } else {
        assert r[j] in s;
      }
    }
  }

  /** A sorted sequence stays sorted without its head. */
  lemma SortedTail<T>(key: T -> int, s: seq<T>)
    requires |s| > 0 && SortedBy(key, s)
    ensures SortedBy(key, s[1..])
  {
    forall i, j | 0 <= i < j < |s[1..]| ensures key(s[1..][i]) <= key(s[1..][j]) {
      assert s[1..][i] == s[i + 1] && s[1..][j] == s[j + 1];
    }
  }

  /** Stable sort of `s` by `key`. */
  function SortBy<T>(key: T -> int, s: seq<T>): (r: seq<T>)
    ensures SortedBy(key, r)
    ensures multiset(r) == multiset(s)
    ensures |r| == |s|
  {
    if |s| == 0 then []
    else
      assert multiset(s) == multiset{s[0]} + multiset(s[1..]) by {
        assert s == [s[0]] + s[1..];
      }
      Insert(key, s[0], SortBy(key, s[1..]))
  }

  lemma {:induction false} WithKeyCons<T>(key: T -> int, x: T, s: seq<T>, k: int)
    ensures WithKey(key, [x] + s, k) == (if key(x) == k then [x] else []) + WithKey(key, s, k)
  {
    assert ([x] + s)[0] == x;
    assert ([x] + s)[1..] == s;
  }

  /** Inserting `x` adds it to its own key class at the front and leaves every
      other key class as it was. */
  lemma {:induction false} InsertWithKey<T>(key: T -> int, x: T, s: seq<T>, k: int)
    requires SortedBy(key, s)
    ensures WithKey(key, Insert(key, x, s), k) == (if key(x) == k then [x] else []) + WithKey(key, s, k)
  {
    if |s| == 0 || key(x) <= key(s[0]) {
      WithKeyCons(key, x, s, k);
    } else {
      SortedTail(key, s);
      var rest := Insert(key, x, s[1..]);
      assert Insert(key, x, s) == [s[0]] + rest;
      assert s == [s[0]] + s[1..];
      InsertWithKey(key, x, s[1..], k);
      WithKeyCons(key, s[0], rest, k);
      WithKeyCons(key, s[0], s[1..], k);
      if key(x) == k {
        // s[0] is not in class k, since key(s[0]) < key(x)
        assert WithKey(key, Insert(key, x, s), k) == WithKey(key, rest, k);
        assert WithKey(key, s, k) == WithKey(key, s[1..], k);
      } else {
        assert WithKey(key, rest, k) == WithKey(key, s[1..], k);
      }
    }
  }

  /** Stability: every key class keeps its input order. */
  lemma {:induction false} SortIsStable<T>(key: T -> int, s: seq<T>, k: int)
    ensures WithKey(key, SortBy(key, s), k) == WithKey(key, s, k)
  {
    if |s| == 0 {
    } else {
      SortIsStable(key, s[1..], k);
      InsertWithKey(key, s[0], SortBy(key, s[1..]), k);
      WithKeyCons(key, s[0], s[1..], k);
      assert s == [s[0]] + s[1..];
    }
  }
}

=== FILE: tables.dfy ===
/** Tables are finite maps from primary key to row. A query without an
    `ORDER BY` returns rows in an order the database chooses; the model fixes
    that order as ascending primary key, and nothing in the contracts depends
    on it beyond "each row exactly once". */
module Tables {

  /** Every non-empty finite set of integers has a least element. */
  lemma {:induction false} LeastElement(keys: set<int>) returns (m: int)
    requires keys != {}
    ensures m in keys
    ensures forall x | x in keys :: m <= x
    decreases |keys|
  {
    if forall x :: x !in keys {
      assert false;
    }
    var y :| y in keys;
    var others := keys - {y};
    if others == {} {
      assert keys == {y};
      m := y;
    } else {
      var n := LeastElement(others);
      assert forall x | x in keys :: x == y || x in others;
      m := if y < n then y else n;
    }
  }

  /** The smallest element of a non-empty set. */
  function Min(keys: set<int>): (m: int)
    requires keys != {}
    ensures m in keys
    ensures forall x | x in keys :: m <= x
  {
    assert exists m :: m in keys && forall x | x in keys :: m <= x by {
      var least := LeastElement(keys);
    }
    var m :| m in keys && forall x | x in keys :: m <= x;
    m
  }

  /** A row together with its primary key, as a query returns it. */
  datatype Row<R> = Row(id: int, data: R)

  /** Rows listed in strictly ascending id order. */
  predicate AscendingIds<R>(rows: seq<Row<R>>) {
    forall i, j | 0 <= i < j < |rows| :: rows[i].id < rows[j].id
  }

  /** The rows of a table in ascending key order. */
  function Entries<R>(m: map<int, R>): (r: seq<Row<R>>)
    decreases |m.Keys|
  {
    if m.Keys == {} then []
    else
      var k := Min(m.Keys);
      assert (m - {k}).Keys == m.Keys - {k};
      [Row(k, m[k])] + Entries(m - {k})
  }

  lemma {:induction false} EntriesLength<R>(m: map<int, R>)
    ensures |Entries(m)| == |m|
    decreases |m.Keys|
  {
    if m.Keys == {} {
      assert |m| == |m.Keys| == 0;
    } else {
      var k := Min(m.Keys);
      var rest := m - {k};
      assert rest.Keys == m.Keys - {k};
      assert |m| == |m.Keys| && |rest| == |rest.Keys|;
      EntriesLength(rest);
    }
  }

  lemma {:induction false} EntriesSound<R>(m: map<int, R>)
    ensures forall x | x in Entries(m) :: x.id in m && m[x.id] == x.data
    decreases |m.Keys|
  {
    if m.Keys != {} {
      var k := Min(m.Keys);
      var rest := m - {k};
      assert rest.Keys == m.Keys - {k};
      EntriesSound(rest);
    }
  }

  lemma {:induction false} EntriesComplete<R>(m: map<int, R>)
    ensures forall id | id in m :: Row(id, m[id]) in Entries(m)
    decreases |m.Keys|
  {
    if m.Keys != {} {
      var k := Min(m.Keys);
      var rest := m - {k};
      assert rest.Keys == m.Keys - {k};
      EntriesComplete(rest);
      forall id | id in m ensures Row(id, m[id]) in Entries(m) {
        if id != k {
          assert id in rest && rest[id] == m[id];
        }
      }
    }
  }

  lemma {:induction false} EntriesIncreasing<R>(m: map<int, R>)
    ensures AscendingIds(Entries(m))
    decreases |m.Keys|
  {
    if m.Keys != {} {
      var k := Min(m.Keys);
      var rest := m - {k};
      assert rest.Keys == m.Keys - {k};
      EntriesIncreasing(rest);
      EntriesSound(rest);
      var tail := Entries(rest);
      var r := Entries(m);
      forall i, j | 0 <= i < j < |r| ensures r[i].id < r[j].id {
        assert r[j] == tail[j - 1];
        if i > 0 {
          assert r[i] == tail[i - 1];
        } else {
          assert tail[j - 1] in tail;
        }
      }
    }
  }

  /** `Entries` lists every row of the table exactly once, with its own key,
      in ascending key order. */
  lemma EntriesSpec<R>(m: map<int, R>)
    ensures var r := Entries(m);
            && |r| == |m|
            && (forall x | x in r :: x.id in m && m[x.id] == x.data)
            && (forall id | id in m :: Row(id, m[id]) in r)
            && AscendingIds(r)
  {
    EntriesLength(m);
    EntriesSound(m);
    EntriesComplete(m);
    EntriesIncreasing(m);
  }

  /** Two tables with the same keys list their rows under the same ids. */
  lemma {:induction false} EntriesSameKeys<R, S>(t1: map<int, R>, t2: map<int, S>)
    requires t1.Keys == t2.Keys
    ensures |Entries(t1)| == |Entries(t2)|
    ensures forall i | 0 <= i < |Entries(t1)| :: Entries(t1)[i].id == Entries(t2)[i].id
    decreases |t1.Keys|
  {
    if t1.Keys != {} {
      var k := Min(t1.Keys);
      assert Min(t2.Keys) == k;
      assert (t1 - {k}).Keys == (t2 - {k}).Keys;
      assert (t1 - {k}).Keys == t1.Keys - {k};
      EntriesSameKeys(t1 - {k}, t2 - {k});
    }
  }
}

=== FILE: text.dfy ===
/** The string operations the attendee form relies on: ECMAScript's white
    space (the set both `String.prototype.trim` and the regular-expression
    class `\s` use), trimming, and the unanchored search for the e-mail shape
    `\S+@\S+\.\S+`. */
module Text {

  /** ECMAScript WhiteSpace and LineTerminator code points: tab, line feed,
      vertical tab, form feed, carriage return, space, no-break space, ogham
      space mark, the en quad .. hair space block, line and paragraph
      separators, narrow no-break space, medium mathematical space,
      ideographic space and the byte order mark. */
  predicate IsSpace(c: char) {
    || ('\U{0009}' <= c <= '\U{000D}')
    || c == '\U{0020}'
    || c == '\U{00A0}'
    || c == '\U{1680}'
    || ('\U{2000}' <= c <= '\U{200A}')
    || c == '\U{2028}'
    || c == '\U{2029}'
    || c == '\U{202F}'
    || c == '\U{205F}'
    || c == '\U{3000}'
    || c == '\U{FEFF}'
  }

  predicate AllSpace(s: string) {
    forall k | 0 <= k < |s| :: IsSpace(s[k])
  }

  /** Number of white-space characters at the front of `s`. */
  function LeadingSpace(s: string): (n: nat)
    ensures n <= |s|
    ensures AllSpace(s[..n])
    ensures n < |s| ==> !IsSpace(s[n])
  {
    if |s| == 0 || !IsSpace(s[0]) then 0
    else
      var n := 1 + LeadingSpace(s[1..]);
      assert forall k | 1 <= k < n :: s[k] == s[1..][k - 1];
      n
  }

  /** Number of white-space characters at the end of `s`. */
  function TrailingSpace(s: string): (n: nat)
    ensures n <= |s|
    ensures AllSpace(s[|s| - n..])
    ensures n < |s| ==> !IsSpace(s[|s| - n - 1])
  {
    if |s| == 0 || !IsSpace(s[|s| - 1]) then 0
    else
      var init := s[..|s| - 1];
      var n := 1 + TrailingSpace(init);
      assert forall k | |s| - n <= k < |s| - 1 :: s[k] == init[k];
      n
  }

  /** Where the trimmed part of `s` starts. */
  function TrimStart(s: string): nat {
    LeadingSpace(s)
  }

  /** Where the trimmed part of `s` ends. */
  function TrimEnd(s: string): int {
    |s| - TrailingSpace(s[TrimStart(s)..])
  }

  /** `String.prototype.trim`: white space removed at both ends and only
      there. */
  function Trim(s: string): (r: string)
    ensures |r| == 0 <==> AllSpace(s)
    ensures |r| > 0 ==> !IsSpace(r[0]) && !IsSpace(r[|r| - 1])
    ensures exists a | 0 <= a <= |s| - |r| ::
      && s[a..a + |r|] == r
      && AllSpace(s[..a])
      && AllSpace(s[a + |r|..])
  {
    TrimCuts(s);
    assert TrimStart(s) == TrimEnd(s) <==> AllSpace(s) by {
      if AllSpace(s) {
        SpaceOnlyTrimsToEmpty(s);
      }
      if TrimStart(s) == TrimEnd(s) {
        EmptyTrimIsSpaceOnly(s);
      }
    }
    var a, b := TrimStart(s), TrimEnd(s);
    var r := s[a..b];
    assert s[a..a + |r|] == r;
    assert |r| > 0 ==> r[0] == s[a] && r[|r| - 1] == s[b - 1];
    r
  }

  /** Only white space lies outside the cut points, and none sits right at
      them. */
  lemma TrimCuts(s: string)
    ensures 0 <= TrimStart(s) <= TrimEnd(s) <= |s|
    ensures AllSpace(s[..TrimStart(s)]) && AllSpace(s[TrimEnd(s)..])
    ensures TrimStart(s) < TrimEnd(s) ==> !IsSpace(s[TrimStart(s)]) && !IsSpace(s[TrimEnd(s) - 1])
  {
    var a, b := TrimStart(s), TrimEnd(s);
    var rest := s[a..];
    assert s[b..] == rest[|rest| - TrailingSpace(rest)..];
    if a < b {
      assert s[b - 1] == rest[|rest| - TrailingSpace(rest) - 1];
    }
  }

  /** When `s` is all white space the cut points meet. */
  lemma SpaceOnlyTrimsToEmpty(s: string)
    requires AllSpace(s)
    ensures TrimStart(s) == TrimEnd(s)
  {
    var a := LeadingSpace(s);
    var rest := s[a..];
    AllLeadingSpace(s);
    assert |rest| == 0;
  }

  /** When the cut points meet `s` is all white space. */
  lemma EmptyTrimIsSpaceOnly(s: string)
    requires TrimStart(s) == TrimEnd(s)
    ensures AllSpace(s)
  {
    var a := LeadingSpace(s);
    var rest := s[a..];
    AllTrailingSpace(rest);
    SpaceAfterLeading(s);
    assert s[..a] == s;
  }

  /** Leading space stops at the first other character, so when only white
      space follows it there was nothing else. */
  lemma SpaceAfterLeading(s: string)
    ensures AllSpace(s[LeadingSpace(s)..]) ==> LeadingSpace(s) == |s|
  {
    var a := LeadingSpace(s);
    if a < |s| {
      assert s[a..][0] == s[a];
    }
  }

  /** White space only exactly when all of it is leading space. */
  lemma AllLeadingSpace(s: string)
    ensures LeadingSpace(s) == |s| <==> AllSpace(s)
  {
    if LeadingSpace(s) == |s| {
      assert s[..|s|] == s;
    }
  }

  /** White space only exactly when all of it is trailing space. */
  lemma AllTrailingSpace(s: string)
    ensures TrailingSpace(s) == |s| <==> AllSpace(s)
  {
    if TrailingSpace(s) == |s| {
      assert s[0..] == s;
    }
  }

  /** The regular expression `\S+@\S+\.\S+` matches with its `@` at index `at`
      and its literal dot at index `dot`. One non-space character before the
      `@` and one after the dot suffice, since the outer `\S+` may match just
      one character; everything strictly between the two must be non-space and
      there must be at least one such character. */
  predicate EmailShapeAt(e: string, at: int, dot: int) {
    && 1 <= at
    && at + 2 <= dot
    && dot + 1 < |e|
    && !IsSpace(e[at - 1])
    && e[at] == '@'
    && (forall k | at < k < dot :: !IsSpace(e[k]))
    && e[dot] == '.'
    && !IsSpace(e[dot + 1])
  }

  /** `/\S+@\S+\.\S+/.test(e)`: the pattern is not anchored, so it matches
      anywhere inside `e`. */
  predicate EmailShape(e: string) {
    exists at, dot | 0 <= at < |e| && 0 <= dot < |e| :: EmailShapeAt(e, at, dot)
  }
}

=== FILE: users.dfy ===
/** The `users` table of the MySQL backend, shared by the admin controller
    and the profile routes. Every column may be `NULL`. `isAdmin` is the
    integer `is_admin` flag and `status` the account status ("active" or
    another value). */
module Users {
  import opened Common

  datatype User = User(
    firstName: Option<string>,
    middleName: Option<string>,
    lastName: Option<string>,
    username: Option<string>,
    email: Option<string>,
    password: Option<string>,
    isAdmin: Option<int>,
    status: Option<string>,
    bio: Option<string>,
    profilePhoto: Option<string>)

  type UserTable = map<int, User>

  /** `t2` is `t1` except for the stored passwords. */
  predicate SameButPasswords(t1: UserTable, t2: UserTable) {
    && t1.Keys == t2.Keys
    && forall id | id in t1 :: t1[id].(password := None) == t2[id].(password := None)
  }
}
